=== FILE: README.md ===
# MS-Bot-Test core, modelled in Dafny

MS-Bot-Test is a regression runner for a bot reached over Direct Line. The
runner reads test cases from a workbook. An "Index" sheet lists the cases.
Each case has a script sheet whose rows give a step number, a user input,
an expected response and entity annotations. A script with alternative rows
expands into several linear conversation paths. The runner plays every path
as its own conversation and compares the bot's reply with the expected
response. It then counts the paths that passed and the paths that failed.

This project models that core as pure functions over immutable data:

- `Annotations`: the `{index,name}` entity annotations of a script row (`GetEntities`).
- `Columns`: the column index of a cell reference (`ColumnIndex`).
- `Builder`: the expansion of a script into paths (`GetTestCaseSteps`).
- `Suite`: the index-sheet filter of the `TestSuite` constructor.
- `Placeholders`: the `${n}` / `${n-m}` placeholders of an expected response and their two-pass resolution.
- `Replies`: how a batch of bot activities becomes one reply text, and how that text is compared with the expected one.
- `Driver`: one path run as one conversation (`ProcessTestCase`), with the correlation token (`GetClientActivityToResponse`) and the watermark bookkeeping.
- `Orchestrator`: the loops of `Main` and the pass/fail totals.
- `Text`, `Wrappers`, `Model`: string helpers with .NET meaning (`Trim`, `Replace`, `string.Join`, ASCII `ToLower`/`ToUpper`), `Option`/`Result`, and the data classes `TestCase`, `TestCaseStep`, `StepAction` and `Entity`.

The workbook and the conversation service are parameters:

- A `Suite.Workbook` holds the index rows and each script sheet's rows.
- A `Driver.Transcript` holds, for every action, the batches that successive polls returned within the polling window.
- The generated client id is passed in as a string.

## Model

| member | source | states |
|---|---|---|
| Annotations.GetEntities | MSBotTest/TestSuite.cs:179-199 | every entity found has a non-negative index and a non-empty name that holds no comma and no closing brace |
| Annotations.EntitiesRoundTrip | MSBotTest/TestSuite.cs:182-198 | writing any list of such entities as `{index,name}` annotations and scanning the text back gives the same entities in the same order |
| Annotations.AnnotationThenRest | MSBotTest/TestSuite.cs:184-198 | for every annotation `{digits,body}` followed by any text: the name is the part of the body before its first comma (the second comma-separated field), the annotation yields the entity with that index and name exactly when the name is non-empty and nothing otherwise, and the entities of the text after the closing brace follow |
| Annotations.NameIsSecondField | MSBotTest/TestSuite.cs:187-190 | example: `{2,a,b}` gives entity 2 named "a" |
| Annotations.EmptyNameDropped | MSBotTest/TestSuite.cs:191-198 | example: `{3,}`, whose name field is empty, yields no entity |
| Annotations.EmptyFieldBeforeSecondComma | MSBotTest/TestSuite.cs:189-191 | `{4,,x}` yields no entity, because the second field is empty even though text follows it |
| Columns.ColumnIndex | MSBotTest/TestSuite.cs:216-223 | the result is the bijective base-26 value (A = 1, each character worth its code minus 64) of the reference's leading run of characters that do not sort below 'A', upper-cased, minus one; that run holds letters but also `_`, `[` and anything else above 'A', so "A_1" is column 56 |
| Columns.ColumnIndexRoundTrip | MSBotTest/TestSuite.cs:216-223 | `ColumnIndex` inverts column naming: the letters of column `col` followed by any row number give back `col` |
| Columns.ColumnIndexIgnoresCase | MSBotTest/TestSuite.cs:219 | a lower-case reference names the same column as the original |
| Columns.ColumnIndexAA3 | MSBotTest/TestSuite.cs:220-222 | "AA3" is column 26, so the letters after the first carry on in base 26 |
| Builder.GetTestCaseSteps | MSBotTest/TestSuite.cs:94-171 | the paths of a script sheet; what they are is stated by Builder.PathNumbering, Builder.LinearScript, Builder.SimplePaths and Builder.BranchingMultiplies |
| Builder.ApplyRow | MSBotTest/TestSuite.cs:108-168 | one pass of the row loop; what it does to the paths, the counter and the current step is stated by Builder.NumberedRow and Builder.AlternativeRow |
| Builder.RemoveFirstPrimary | MSBotTest/TestSuite.cs:160 | exactly the first primary action of the step is removed: the actions before and after it stay in order, and only that step loses one primary |
| Builder.BranchSpec | MSBotTest/TestSuite.cs:154-166 | one new path for each path holding a primary of the current step, in path order and numbered consecutively; each new path is its source without that primary, plus the alternative |
| Builder.NumberedRow | MSBotTest/TestSuite.cs:123-141 | a numbered row appends the same primary action to every path, keeps the path numbers and the counter, and makes its step the current one |
| Builder.AlternativeRow | MSBotTest/TestSuite.cs:142-167 | an alternative row keeps every path as it is, adds the branched paths after them numbered from the counter on, advances the counter by their number and leaves the current step alone |
| Builder.PathNumbering | MSBotTest/TestSuite.cs:102-106 | every case has at least one path, and its paths are numbered 1, 2, … in list order, so the numbers are distinct |
| Builder.LinearScript | MSBotTest/TestSuite.cs:125-143 | a script without alternative rows yields exactly one path, numbered 1, holding the rows' primary actions in row order |
| Builder.SimplePaths | MSBotTest/TestSuite.cs:139-167 | when numbered rows carry distinct step numbers, no path holds two primary actions of the same step |
| Builder.BranchingMultiplies | MSBotTest/TestSuite.cs:139-167 | a numbered row for a new step followed by `a` alternative rows multiplies the number of paths by `1 + a` |
| Suite.ReadHeader | MSBotTest/TestSuite.cs:57-70 | the sheet name is the value of the last cell in column A, and the description the value of the last cell in column B, each "" when no such cell exists |
| Suite.LoadCases | MSBotTest/TestSuite.cs:54-83 | there are no more cases than index rows; every case has a non-empty name and description, names an existing sheet, and has that sheet's expanded paths as its steps |
| Suite.LoadCasesInOrder | MSBotTest/TestSuite.cs:56-81 | the cases of two runs of index rows are the cases of the first run followed by those of the second, so cases come out in index-sheet order |
| Suite.LoadCasesOne | MSBotTest/TestSuite.cs:57-81 | a single index row yields exactly its own case when it passes the filter, and nothing otherwise |
| Suite.LoadCasesComplete | MSBotTest/TestSuite.cs:72-81 | every non-header index row with a non-empty name and description that names an existing sheet yields a case |
| Suite.LoadCasesSound | MSBotTest/TestSuite.cs:56-81 | every case comes from an index row that declares it and passes the filter |
| Text.Trim | MSBotTest/Program.cs:124 | the result is the text between a leading and a trailing run of white space, and it neither starts nor ends with white space |
| Text.TrimPadded | MSBotTest/Program.cs:124 | trimming text padded by white space on both sides gives back the text itself, when that text is non-empty and has no white space at either end |
| Placeholders.MatchRef | MSBotTest/Program.cs:156-167 | a match of `${digits}` or `${digits-digits}` at the start of the text covers exactly that placeholder's text, with non-empty digit runs |
| Placeholders.MatchOwnText | MSBotTest/Program.cs:156-157 | every well-formed placeholder at the start of a text is matched by its own pattern, over exactly its own length, whatever follows it |
| Placeholders.MatchOtherText | MSBotTest/Program.cs:156-157 | a placeholder at the start of a text is never matched by the other kind's pattern |
| Placeholders.FindStep | MSBotTest/Program.cs:164 | gives the first action with the step number, or nothing when no action has it |
| Placeholders.FindEntity | MSBotTest/Program.cs:177-178 | gives the first entity with the index, or nothing when no entity has it |
| Placeholders.Resolve | MSBotTest/Program.cs:154-179 | both passes over an expected response; stated by Placeholders.PassOutcome for each pass, by Placeholders.ResolveRender against the independent expansion, and by Placeholders.ResolveDollarFree |
| Placeholders.PassOutcome | MSBotTest/Program.cs:158-165 | a pass succeeds exactly when every matched placeholder has a value; a failure reports the error of the first placeholder without one |
| Placeholders.ScanRender | MSBotTest/Program.cs:156-157 | matching a template made of literal text and placeholders finds exactly its placeholders of that kind, in order |
| Placeholders.ReplaceRender | MSBotTest/Program.cs:163-164 | replacing one placeholder's text replaces exactly that placeholder in every position where it occurs, and no other placeholder and no literal text |
| Placeholders.ResolveRender | MSBotTest/Program.cs:154-179 | for a template whose literal text holds no `$` and whose placeholders are well formed, against actions whose inputs and entity names hold no `$`: resolving succeeds exactly when every placeholder has a value, and then yields the template with each placeholder replaced by its value |
| Placeholders.ResolveDollarFree | MSBotTest/Program.cs:154-179 | an expected response without a `$` resolves to itself, against any path |
| Placeholders.ResolveInputExample | MSBotTest/Program.cs:156-165 | "see you ${1}" against a step 1 whose input is "hi" resolves to "see you hi" |
| Placeholders.ResolveEntityExample | MSBotTest/Program.cs:167-179 | "${1-2} it is" against step 1 with entity 2 named "paris" resolves to "paris it is" |
| Placeholders.ResolveMissingExample | MSBotTest/Program.cs:163-164 | a reference to a step the path does not have fails with that step number |
| Replies.HeroCardText | MSBotTest/Program.cs:122-133 | a hero card renders as its trimmed text, then its button titles joined by `\|` in parentheses |
| Replies.HeroCardNoButtonsExample | MSBotTest/Program.cs:125-131 | a card without buttons loses its `(` rather than a character of its text: "Done" renders as "Done)" |
| Replies.HeroCardExample | MSBotTest/Program.cs:122-132 | the card "  Pick one " with buttons Yes and No renders as "Pick one(Yes\|No)" |
| Replies.Fragments | MSBotTest/Program.cs:118-140 | an activity adds exactly one piece to the reply when it has no attachment (its text) or when its first attachment is a hero card (the rendered card), and nothing when its first attachment is of any other type |
| Replies.Normalize | MSBotTest/Program.cs:181-182 | the normalised text is the text lower-cased with every CR and every LF removed, so it holds no line break |
| Replies.BatchFragmentsAppend | MSBotTest/Program.cs:113-143 | the pieces of two batches in a row are the first batch's pieces followed by the second's |
| Replies.PlainBatch | MSBotTest/Program.cs:113-143 | a batch of activities without attachments contributes every activity's text, one piece each, in arrival order |
| Replies.ReplyComparesConcatenated | MSBotTest/Program.cs:181-182 | a reply matches an expected text exactly when its pieces, run together without line breaks, match it |
| Replies.NormalizeJoin | MSBotTest/Program.cs:181 | pieces joined by a line break compare as if they were concatenated, whether the line break is CRLF or LF |
| Replies.NormalizeIgnoresCase | MSBotTest/Program.cs:181-182 | lower-casing either side first does not change the comparison |
| Replies.MatchesAcrossBreaks | MSBotTest/Program.cs:181-182 | two-line texts whose lines agree up to case match, whether each uses a CRLF or an LF break |
| Replies.MatchesExample | MSBotTest/Program.cs:181-182 | "Hi\r\nThere" matches "hi\nthere" |
| Driver.Token | MSBotTest/Program.cs:221-224 | the correlation token of a post; Driver.TokenRoundTrip states that its client id and watermark can be read back |
| Driver.TokenRoundTrip | MSBotTest/Program.cs:221-224 | the client id and the watermark can be read back from the token, even though the client id itself holds a dot |
| Driver.FirstReply | MSBotTest/Program.cs:112-151 | the poll loop stops at the first non-empty batch; when every batch is empty, there is no reply |
| Driver.ActionOutcome | MSBotTest/Program.cs:112-198 | what one action comes to; stated by Driver.PoliciesAgree, Driver.PoliciesDiffer, Driver.ResolvedPolicyCompares and Driver.TimeoutIsNoOp |
| Driver.PoliciesAgree | MSBotTest/Program.cs:154-182 | when the expected response holds no `$`, comparing with the cell as written and comparing with the resolved text give the same outcome for every reply, so the comparison bug can only show on a response with a placeholder |
| Driver.RunActions | MSBotTest/Program.cs:79-200 | the action loop posts with the watermark of every earlier reply activity plus every earlier post but the first; it polls from that same watermark for the first action and from one past it for every later action, stops after the first decisive outcome, and reports the verdict that outcome decides |
| Driver.PoliciesDiffer | MSBotTest/Program.cs:152-182 | the two comparisons give different outcomes for an action exactly when a reply arrived, the expected response resolved, and the reply matches one of the cell as written and its resolution but not the other |
| Driver.ProcessTestCase | MSBotTest/Program.cs:70-213 | one path's run: exactly the actions up to the first mismatch or failed resolution are played, each with its closed-form tokens, and the verdict is decided by that first decisive action |
| Driver.DecidePassed | MSBotTest/Program.cs:196-206 | a path passes exactly when no action mismatched and no resolution failed |
| Driver.DecideStops | MSBotTest/Program.cs:188-198 | a path that did not pass stopped at its first decisive action, which is the last one played; a mismatch fails the path with that action's step number, and a failed resolution crashes it |
| Driver.PassedRunsAll | MSBotTest/Program.cs:83-200 | a passing path plays every action |
| Driver.TimeoutIsNoOp | MSBotTest/Program.cs:146-152 | an action whose polls all came back empty, the path's last action included, is not checked; the next post's watermark is `Consumed(j) + j`, so this action's post counts unless it is the first |
| Driver.ResolvedPolicyCompares | MSBotTest/Program.cs:154-182 | under the corrected comparison, for a template whose literal text holds no `$` and whose placeholders are well formed and all have values, against actions whose inputs and entity names hold no `$`, a reply is compared with the template after its placeholders are replaced by their values |
| Driver.AsWrittenRejectsResolvedReply | MSBotTest/Program.cs:181-182 | the bot answers "see you hi" to "hi", exactly what "see you ${1}" describes; the runner as written fails the path, and the corrected comparison passes it |
| Orchestrator.RunPaths | MSBotTest/Program.cs:40-58 | with totals, no path crashed, passed + failed is the number of paths, and passed counts the paths whose verdict is Passed; an abort carries the error of the first path that crashed |
| Orchestrator.RunSuite | MSBotTest/Program.cs:34-61 | the same guarantees hold for the paths of all cases the workbook yields, taken case by case in order |
| Orchestrator.CaseByCase | MSBotTest/Program.cs:40-52 | the single loop over all paths keeps the pass counter of `Main`'s nested loops: the first case's paths run with the first sessions, and the passes of the whole run are the first case's passes plus those of the remaining cases |
| Orchestrator.CaseByCaseCrash | MSBotTest/Program.cs:43-52 | the whole run is free of crashes exactly when the first case's paths and the remaining cases' paths are |
| Orchestrator.PassedPath | MSBotTest/Program.cs:201-211 | a path counts as passed exactly when none of its actions mismatched or failed to resolve |

## Left out

- Reading the workbook (OpenXml, `GetCellValue`, `UriFixer`): the workbook is given as index rows and, for every sheet, its script rows. Cell values are already strings.
- Missing cells: a cell that does not exist reads as "" here, while the source gets `null` and then crashes on it:
- Annotations.GetEntities: a script row without an entity cell (the common case) makes `Matches(null)` throw `ArgumentNullException` at MSBotTest/TestSuite.cs:183; the model scans "" and gives no entities.
- Driver.ProcessTestCase: when a reply arrives for a row without an expected-response cell, `Matches(null)` at MSBotTest/Program.cs:157 throws, and so would `ToLower()` at line 182; the model compares the reply with "" and gives a match or a mismatch instead of a crash.
- `Convert.ToInt32` of the step-number cell: the model takes the parsed value (`ScriptRow.stepNumber`). Malformed numbers and 32-bit overflow are not modelled.
- Columns.ColumnIndex: computed on unbounded integers. The source's 32-bit `int` overflow on very long references is not modelled.
- Annotations.GetEntities: the annotation index has unbounded value. `Convert.ToInt32` at MSBotTest/TestSuite.cs:189 throws `OverflowException` on `{99999999999,a}`, while the model gives `Entity(99999999999, "a")`.
- Placeholders.Value: digit strings have unbounded value. `Convert.ToInt32` overflow on long digit runs is not modelled.
- `\d` in the regular expressions: only the ASCII digits 0-9 are accepted, while .NET also matches other Unicode decimal digits.
- `ToLower`/`ToUpper`: ASCII letters only, with no culture-specific mapping.
- The entity pattern `\{(\d)+\,(*)+\}` at MSBotTest/TestSuite.cs:182 is not a valid .NET regular expression: `(*)` quantifies nothing, so the constructor throws. The model follows the grammar the code evidently means, where the name field runs up to the closing brace. As written, the pattern is built on every call of `GetEntities`, and MSBotTest/TestSuite.cs:123 calls it for every script row after the header, whatever its entity cell holds. So the source throws `ArgumentException` while building the first kept case whose sheet has a data row, before any test runs.
- `Console.ReadLine` at MSBotTest/TestSuite.cs:200 and at the end of `Main`, and all console output and colours: I/O with no effect on results.
- `DeepClone` and `TestCaseStep.Copy`: datatypes are values, so a copy is the value itself.
- The Direct Line client (starting a conversation, posting activities, polling), the 15-second window and `Thread.Sleep`: the batches each poll returned are a parameter (`Driver.Transcript`), and so is the client id.
- `GenerateNumber` and its random digits: the client id is a parameter.
- The JSON channel data around the token, and the activity fields other than text and attachments.
- Hero-card deserialisation: an attachment carries the card it deserialises to.
- Replies.HeroCardText: a card always has a text and a list of buttons. A hero card whose JSON has no `text` or no `buttons` deserialises with a null field, and the source then throws `NullReferenceException` at MSBotTest/Program.cs:124 or 126. The model's card always carries both fields, so that crash is not modelled.
- `Environment.NewLine` is fixed to CRLF. `Replies.NormalizeJoin` shows that the comparison does not depend on it.
- Driver.ProcessTestCase: every action's outcome is computed up front, as a pure function, before the loop. The loop then plays exactly the actions the source plays.
- Orchestrator.RunSuite: one loop runs over all paths of all cases, flattened in order, instead of two nested loops. `Orchestrator.CaseByCase` relates the two.
- Placeholders.ResolveRender: the equation with `Expand` is stated for literal text, inputs and entity names without `$`. Outside that domain the source re-scans the text after the first pass, so a `${n-m}` that appears inside a substituted input is substituted too, and `Replace` can also hit placeholder text that straddles a substituted value. `Placeholders.Resolve` models that cascade as written; only the closed-form statement leaves it out.
- The failure message text (`Failure: …`, expected and actual output) is not modelled. The verdict keeps the step number of the failing action.
- 32-bit wrap-around of the pass and fail counters and of the watermark is not modelled.

## Findings

| source | as written | input that shows it | evidently intended | confidence | as-written member | corrected member |
|---|---|---|---|---|---|---|
| MSBotTest/Program.cs:181-182 | the reply is compared with `action.ExpectedResponse`, the raw cell; the text with placeholders resolved (lines 154-179) is computed and never used | a path with one action, step 1 input "hi" and expected "see you ${1}", whose reply is "see you hi" | compare the reply with the resolved expected response | not executed | Driver.AsWrittenRejectsResolvedReply | Driver.ResolvedPolicyCompares |

`Driver.Policy` selects which expected text is used. `AsWritten` is the code as written. `ResolvedExpected` is the corrected comparison. `Driver` and `Orchestrator` take the policy as a parameter, and every property of a path's run holds under both.

=== FILE: annotations.dfy ===
/** The entity-annotation mini-language of the script's fourth column:
    zero or more `{index,name}` annotations, recognised left to right. The
    index is the run of decimal digits after the opening brace; the name is
    the text between the first and the second comma inside the braces. */
module Annotations {
  import opened Wrappers
  import opened Text
  import opened Model

  /** What one match of the annotation pattern captures: the index digits
      and everything between the comma and the closing brace. */
  datatype Annotation = Annotation(digits: string, body: string)

  /** Number of characters before the first occurrence of `c` in `s`
      (all of `s` when `c` does not occur). */
  function CharsBefore(s: string, c: char): (n: nat)
    ensures n <= |s| && Lacks(s[..n], c)
    ensures n < |s| ==> s[n] == c
  {
    if |s| == 0 || s[0] == c then 0
    else
      var k := CharsBefore(s[1..], c);
      assert s[..k + 1] == [s[0]] + s[1..][..k];
      k + 1
  }

  /** Matches the pattern `\{(\d)+,[^}]*\}` at the start of `s`, returning
      the length of the match and its captures. */
  function MatchAnnotation(s: string): (m: Option<(nat, Annotation)>)
    ensures m.Some? ==> 0 < m.value.0 <= |s|
    ensures m.Some? ==> AllDigits(m.value.1.digits) && Lacks(m.value.1.body, '}')
  {
    if |s| > 0 && s[0] == '{' then
      var k := DigitRun(s[1..]);
      if k > 0 && 1 + k < |s| && s[1 + k] == ',' then
        var b := CharsBefore(s[2 + k..], '}');
        if 2 + k + b < |s| then
          assert s[1..1 + k] == s[1..][..k];
          assert s[2 + k..2 + k + b] == s[2 + k..][..b];
          Some((3 + k + b, Annotation(s[1..1 + k], s[2 + k..2 + k + b])))
        else None
      else None
    else None
  }

  /** All non-overlapping matches, found left to right (`Regex.Matches`). */
  function Scan(s: string): (anns: seq<Annotation>)
    ensures WellFormedScan(anns)
    decreases |s|
  {
    if |s| == 0 then []
    else match MatchAnnotation(s)
      case Some((n, a)) => [a] + Scan(s[n..])
      case None => Scan(s[1..])
  }

  /** The entity an annotation denotes; `None` when its name field is empty. */
  function ToEntity(a: Annotation): (e: Option<Entity>)
    requires AllDigits(a.digits)
  {
    var name := a.body[..CharsBefore(a.body, ',')];
    if |name| == 0 then None else Some(Entity(DigitsValue(a.digits), name))
  }

  predicate WellFormedScan(anns: seq<Annotation>) {
    forall i :: 0 <= i < |anns| ==> AllDigits(anns[i].digits) && Lacks(anns[i].body, '}')
  }

  function EntitiesOf(anns: seq<Annotation>): seq<Entity>
    requires WellFormedScan(anns)
  {
    if |anns| == 0 then []
    else
      match ToEntity(anns[0])
      case Some(e) => [e] + EntitiesOf(anns[1..])
      case None => EntitiesOf(anns[1..])
  }

  /** An entity that an annotation can denote: non-negative index and a
      non-empty name holding neither a comma nor a closing brace. */
  predicate Denotable(e: Entity) {
    e.index >= 0 && |e.name| > 0 && Lacks(e.name, ',') && Lacks(e.name, '}')
  }

  lemma {:induction false} EntitiesOfDenotable(anns: seq<Annotation>)
    requires WellFormedScan(anns)
    ensures forall e :: e in EntitiesOf(anns) ==> Denotable(e)
    ensures |EntitiesOf(anns)| <= |anns|
  {
    if |anns| > 0 {
      EntitiesOfDenotable(anns[1..]);
      var a := anns[0];
      var k := CharsBefore(a.body, ',');
    }
  }

  /** `GetEntities`: every annotation with a non-empty name, in source order. */
  function GetEntities(cell: string): (r: seq<Entity>)
    ensures forall e :: e in r ==> Denotable(e)
  {
    EntitiesOfDenotable(Scan(cell));
    EntitiesOf(Scan(cell))
  }

  lemma {:induction false} CharsBeforeFirst(x: string, c: char, rest: string)
    requires Lacks(x, c)
    ensures CharsBefore(x + [c] + rest, c) == |x|
  {
    if |x| > 0 {
      assert (x + [c] + rest)[1..] == x[1..] + [c] + rest;
      CharsBeforeFirst(x[1..], c, rest);
    }
  }

  /** The annotation text that denotes `e`. */
  function RenderEntity(e: Entity): string
    requires e.index >= 0
  {
    "{" + NatToDigits(e.index) + "," + e.name + "}"
  }

  function Render(es: seq<Entity>): string
    requires forall i :: 0 <= i < |es| ==> Denotable(es[i])
  {
    if |es| == 0 then "" else
      assert Denotable(es[0]);
      RenderEntity(es[0]) + Render(es[1..])
  }

  /** Unfolds one successful match, given where its parts end. */
  lemma MatchAt(s: string, k: nat, b: nat)
    requires |s| > 2 + k + b && s[0] == '{'
    requires k > 0 && DigitRun(s[1..]) == k && s[1 + k] == ','
    requires CharsBefore(s[2 + k..], '}') == b
    ensures MatchAnnotation(s) == Some((3 + k + b, Annotation(s[1..1 + k], s[2 + k..2 + k + b])))
  {
  }

  /** Where the parts of a rendered annotation sit. */
  lemma RenderedShape(d: string, name: string, rest: string)
    ensures var s := "{" + d + "," + name + "}" + rest;
      && |s| == 3 + |d| + |name| + |rest| && s[0] == '{'
      && s[1..] == d + ("," + name + "}" + rest) && s[1 + |d|] == ','
      && s[2 + |d|..] == name + ['}'] + rest
      && s[1..1 + |d|] == d && s[2 + |d|..2 + |d| + |name|] == name
  {
    var s := "{" + d + "," + name + "}" + rest;
    assert s[1..] == d + ("," + name + "}" + rest);
    assert s[2 + |d|..] == name + ['}'] + rest;
  }

  lemma MatchRendered(e: Entity, rest: string)
    requires e.index >= 0 && Lacks(e.name, '}')
    ensures MatchAnnotation(RenderEntity(e) + rest)
            == Some((|RenderEntity(e)|, Annotation(NatToDigits(e.index), e.name)))
  {
    RenderedLayout(e, rest);
    MatchLaidOut(RenderEntity(e) + rest, NatToDigits(e.index), e.name);
  }

  /** `s` starts with `{`, the digit run `d`, `,`, the brace-free `name`
      and `}`. */
  predicate AnnotationLayout(s: string, d: string, name: string) {
    && |s| > 2 + |d| + |name| && s[0] == '{'
    && |d| > 0 && DigitRun(s[1..]) == |d| && s[1 + |d|] == ','
    && CharsBefore(s[2 + |d|..], '}') == |name|
    && s[1..1 + |d|] == d && s[2 + |d|..2 + |d| + |name|] == name
  }

  lemma MatchLaidOut(s: string, d: string, name: string)
    requires AnnotationLayout(s, d, name)
    ensures MatchAnnotation(s) == Some((3 + |d| + |name|, Annotation(d, name)))
  {
    MatchAt(s, |d|, |name|);
  }

  lemma RenderedLayout(e: Entity, rest: string)
    requires e.index >= 0 && Lacks(e.name, '}')
    ensures AnnotationLayout(RenderEntity(e) + rest, NatToDigits(e.index), e.name)
    ensures |RenderEntity(e)| == 3 + |NatToDigits(e.index)| + |e.name|
  {
    var d := NatToDigits(e.index);
    RenderedShape(d, e.name, rest);
    DigitRunOfDigits(d, "," + e.name + "}" + rest);
    CharsBeforeFirst(e.name, '}', rest);
  }

  /** Rendering entities as annotations and parsing them back yields the
      same entities, in the same order. */
  lemma {:induction false} EntitiesRoundTrip(es: seq<Entity>)
    requires forall i :: 0 <= i < |es| ==> Denotable(es[i])
    ensures GetEntities(Render(es)) == es
  {
    if |es| > 0 {
      var e := es[0];
      var rest := Render(es[1..]);
      var s := RenderEntity(e) + rest;
      MatchRendered(e, rest);
      assert s[|RenderEntity(e)|..] == rest;
      assert Scan(s) == [Annotation(NatToDigits(e.index), e.name)] + Scan(rest);
      assert CharsBefore(e.name, ',') == |e.name|;
      DigitsRoundTrip(e.index);
      assert e.name[..|e.name|] == e.name;
      assert DigitsValue(NatToDigits(e.index)) == e.index;
      assert ToEntity(Annotation(NatToDigits(e.index), e.name)) == Some(Entity(e.index, e.name));
      EntitiesRoundTrip(es[1..]);
    }
  }

  /** An annotation in front of any text: its name is the part of the body
      before the first comma, the annotation yields an entity exactly when
      that name is non-empty, and scanning goes on right after the closing
      brace. */
  lemma AnnotationThenRest(d: string, body: string, rest: string)
    requires |d| > 0 && AllDigits(d) && Lacks(body, '}')
    ensures var name := body[..CharsBefore(body, ',')];
            GetEntities("{" + d + "," + body + "}" + rest)
            == (if |name| > 0 then [Entity(DigitsValue(d), name)] else []) + GetEntities(rest)
  {
    var s := "{" + d + "," + body + "}" + rest;
    RenderedShape(d, body, rest);
    DigitRunOfDigits(d, "," + body + "}" + rest);
    CharsBeforeFirst(body, '}', rest);
    MatchLaidOut(s, d, body);
    assert s[3 + |d| + |body|..] == rest;
    var a := Annotation(d, body);
    assert Scan(s) == [a] + Scan(rest);
    assert ([a] + Scan(rest))[1..] == Scan(rest);
  }

  /** A cell that is exactly one annotation yields that annotation's
      entity, or nothing when its name field is empty. */
  lemma SingleAnnotation(cell: string, a: Annotation)
    requires |cell| > 0 && MatchAnnotation(cell) == Some((|cell|, a))
    ensures AllDigits(a.digits)
    ensures ToEntity(a).Some? ==> GetEntities(cell) == [ToEntity(a).value]
    ensures ToEntity(a).None? ==> GetEntities(cell) == []
  {
    assert cell[|cell|..] == [];
    assert Scan(cell) == [a] + Scan([]) == [a];
    assert [a][1..] == [];
    assert GetEntities(cell) == EntitiesOf([a]);
  }

  /** Only the second comma-separated field inside the braces is the name. */
  lemma NameIsSecondField()
    ensures GetEntities("{2,a,b}") == [Entity(2, "a")]
  {
    var a := Annotation("2", "a,b");
    SecondFieldMatch("{2,a,b}");
    assert ToEntity(a) == Some(Entity(2, "a")) by {
      assert CharsBefore("a,b", ',') == 1 && "a,b"[..1] == "a";
      assert DigitsValue("2") == 2;
    }
    SingleAnnotation("{2,a,b}", a);
  }

  lemma SecondFieldMatch(s: string)
    requires s == "{2,a,b}"
    ensures MatchAnnotation(s) == Some((|s|, Annotation("2", "a,b")))
  {
    assert s[1..] == "2,a,b}" && DigitRun("2,a,b}") == 1;
    assert s[3..] == "a,b}" && CharsBefore("a,b}", '}') == 3;
    MatchAt(s, 1, 3);
    assert s[1..2] == "2" && s[3..6] == "a,b";
  }

  /** An annotation whose name field is empty yields no entity. */
  lemma EmptyNameDropped()
    ensures GetEntities("{3,}") == []
  {
    var a := Annotation("3", "");
    EmptyNameMatch("{3,}");
    assert ToEntity(a) == None;
    SingleAnnotation("{3,}", a);
  }

  lemma EmptyNameMatch(s: string)
    requires s == "{3,}"
    ensures MatchAnnotation(s) == Some((|s|, Annotation("3", "")))
  {
    assert s[1..] == "3,}" && DigitRun("3,}") == 1;
    assert s[3..] == "}" && CharsBefore("}", '}') == 0;
    MatchAt(s, 1, 0);
    assert s[1..2] == "3" && s[3..3] == "";
  }

  /** The same holds when a second comma follows the first directly. */
  lemma EmptyFieldBeforeSecondComma()
    ensures GetEntities("{4,,x}") == []
  {
    var a := Annotation("4", ",x");
    EmptyFieldMatch("{4,,x}");
    assert ToEntity(a) == None by {
      assert CharsBefore(",x", ',') == 0;
    }
    SingleAnnotation("{4,,x}", a);
  }

  lemma EmptyFieldMatch(s: string)
    requires s == "{4,,x}"
    ensures MatchAnnotation(s) == Some((|s|, Annotation("4", ",x")))
  {
    assert s[1..] == "4,,x}" && DigitRun("4,,x}") == 1;
    assert s[3..] == ",x}" && CharsBefore(",x}", '}') == 2;
    MatchAt(s, 1, 2);
    assert s[1..2] == "4" && s[3..5] == ",x";
  }
}

=== FILE: builder.dfy ===
/** `GetTestCaseSteps`: expansion of one script sheet into linear
    conversation paths.

    The builder starts with one empty path numbered 1 and the next number 2.
    A row with a step number appends a primary action to every path. A row
    with an empty step-number cell is an alternative at the current step:
    every path holding a primary action of that step spawns a copy with that
    primary removed and the alternative appended; the copies get fresh
    numbers and are added after all existing paths. The header row (row 1)
    is skipped. */
module Builder {
  import opened Wrappers
  import opened Model
  import Annotations

  /** One script row: the step-number cell (`None` when empty, otherwise its
      integer value), the user input, the expected-response template and the
      entity annotations, as cell strings. */
  datatype ScriptRow = ScriptRow(
    rowIndex: nat,
    stepNumber: Option<int>,
    input: string,
    expectedResponse: string,
    entities: string)

  /** The builder's state: the paths so far, the number the next new path
      takes, and the step number of the last numbered row (0 before any). */
  datatype Build = Build(paths: seq<TestCaseStep>, nextNumber: int, currentStep: int)

  const Start: Build := Build([TestCaseStep(1, [])], 2, 0)

  // ---------------------------------------------------------------------
  // Primary actions within a path
  // ---------------------------------------------------------------------

  predicate IsPrimaryOf(a: StepAction, n: int) {
    a.firstInOrder && a.stepNumber == n
  }

  /** The test the source applies to each path before branching it. */
  predicate HasPrimary(actions: seq<StepAction>, n: int) {
    exists i :: 0 <= i < |actions| && IsPrimaryOf(actions[i], n)
  }

  /** Number of primary actions of step `n` in `actions`. */
  function CountPrimary(actions: seq<StepAction>, n: int): nat {
    if |actions| == 0 then 0
    else (if IsPrimaryOf(actions[0], n) then 1 else 0) + CountPrimary(actions[1..], n)
  }

  lemma {:induction false} CountPrimaryAppend(xs: seq<StepAction>, a: StepAction, m: int)
    ensures CountPrimary(xs + [a], m) == CountPrimary(xs, m) + (if IsPrimaryOf(a, m) then 1 else 0)
  {
    if |xs| > 0 {
      assert (xs + [a])[1..] == xs[1..] + [a];
      CountPrimaryAppend(xs[1..], a, m);
    } else {
      assert xs + [a] == [a];
    }
  }

  lemma {:induction false} HasPrimaryIffCount(xs: seq<StepAction>, n: int)
    ensures HasPrimary(xs, n) <==> CountPrimary(xs, n) > 0
  {
    if |xs| > 0 {
      HasPrimaryIffCount(xs[1..], n);
      if HasPrimary(xs[1..], n) {
        var i :| 0 <= i < |xs[1..]| && IsPrimaryOf(xs[1..][i], n);
        assert IsPrimaryOf(xs[i + 1], n);
      }
      if HasPrimary(xs, n) && !IsPrimaryOf(xs[0], n) {
        var i :| 0 <= i < |xs| && IsPrimaryOf(xs[i], n);
        assert IsPrimaryOf(xs[1..][i - 1], n);
      }
    }
  }

  lemma {:induction false} CountPrimaryConcat(xs: seq<StepAction>, ys: seq<StepAction>, m: int)
    ensures CountPrimary(xs + ys, m) == CountPrimary(xs, m) + CountPrimary(ys, m)
  {
    if |xs| > 0 {
      assert (xs + ys)[1..] == xs[1..] + ys;
      CountPrimaryConcat(xs[1..], ys, m);
    } else {
      assert xs + ys == ys;
    }
  }

  /** Position of the first primary action of step `n`. */
  function FirstPrimary(actions: seq<StepAction>, n: int): (i: nat)
    requires HasPrimary(actions, n)
    ensures i < |actions| && IsPrimaryOf(actions[i], n)
    ensures forall j :: 0 <= j < i ==> !IsPrimaryOf(actions[j], n)
  {
    if IsPrimaryOf(actions[0], n) then 0
    else
      assert HasPrimary(actions[1..], n) by {
        var i :| 0 <= i < |actions| && IsPrimaryOf(actions[i], n);
        assert IsPrimaryOf(actions[1..][i - 1], n);
      }
      1 + FirstPrimary(actions[1..], n)
  }

  /** `List.Remove` of the first primary action of step `n`: exactly that
      action goes, every other action stays, in order. */
  function RemoveFirstPrimary(actions: seq<StepAction>, n: int): (r: seq<StepAction>)
    requires HasPrimary(actions, n)
    ensures |r| == |actions| - 1
    ensures var i := FirstPrimary(actions, n); r[..i] == actions[..i] && r[i..] == actions[i + 1..]
    ensures forall m :: CountPrimary(r, m) == CountPrimary(actions, m) - (if m == n then 1 else 0)
  {
    var i := FirstPrimary(actions, n);
    var r := actions[..i] + actions[i + 1..];
    forall m
      ensures CountPrimary(r, m) == CountPrimary(actions, m) - (if m == n then 1 else 0)
    {
      assert actions == actions[..i] + ([actions[i]] + actions[i + 1..]);
      CountPrimaryConcat(actions[..i], [actions[i]] + actions[i + 1..], m);
      CountPrimaryConcat([actions[i]], actions[i + 1..], m);
      CountPrimaryConcat(actions[..i], actions[i + 1..], m);
    }
    assert r[..i] == actions[..i] && r[i..] == actions[i + 1..];
    r
  }

  // ---------------------------------------------------------------------
  // The two kinds of row
  // ---------------------------------------------------------------------

  function PrimaryAction(row: ScriptRow, n: int): (a: StepAction)
    ensures a.firstInOrder && a.stepNumber == n
  {
    StepAction(n, true, row.input, row.expectedResponse, Annotations.GetEntities(row.entities))
  }

  function AlternativeAction(row: ScriptRow, current: int): (a: StepAction)
    ensures !a.firstInOrder && a.stepNumber == current
  {
    StepAction(current, false, row.input, row.expectedResponse, Annotations.GetEntities(row.entities))
  }

  /** Every path with `a` appended, numbers kept. */
  function AppendToAll(paths: seq<TestCaseStep>, a: StepAction): seq<TestCaseStep> {
    if |paths| == 0 then []
    else [TestCaseStep(paths[0].number, paths[0].actions + [a])] + AppendToAll(paths[1..], a)
  }

  lemma {:induction false} AppendToAllSpec(paths: seq<TestCaseStep>, a: StepAction)
    ensures var r := AppendToAll(paths, a);
            && |r| == |paths|
            && forall i :: 0 <= i < |r| ==>
                 r[i].number == paths[i].number && r[i].actions == paths[i].actions + [a]
  {
    if |paths| > 0 {
      AppendToAllSpec(paths[1..], a);
    }
  }

  /** The paths that hold a primary action of step `n`, in order. */
  function WithPrimary(paths: seq<TestCaseStep>, n: int): (r: seq<TestCaseStep>)
    ensures |r| <= |paths|
    ensures forall k :: 0 <= k < |r| ==> r[k] in paths && HasPrimary(r[k].actions, n)
  {
    if |paths| == 0 then []
    else if HasPrimary(paths[0].actions, n) then [paths[0]] + WithPrimary(paths[1..], n)
    else WithPrimary(paths[1..], n)
  }

  /** No matching path is left out. */
  lemma {:induction false} WithPrimaryComplete(paths: seq<TestCaseStep>, n: int, p: TestCaseStep)
    requires p in paths && HasPrimary(p.actions, n)
    ensures p in WithPrimary(paths, n)
  {
    if paths[0] != p {
      WithPrimaryComplete(paths[1..], n, p);
    }
  }

  /** The paths an alternative row stages, numbered from `next` on. */
  function Branch(paths: seq<TestCaseStep>, n: int, alt: StepAction, next: int): seq<TestCaseStep> {
    if |paths| == 0 then []
    else if HasPrimary(paths[0].actions, n) then
      var p := paths[0];
      [TestCaseStep(next, RemoveFirstPrimary(p.actions, n) + [alt])] + Branch(paths[1..], n, alt, next + 1)
    else Branch(paths[1..], n, alt, next)
  }

  /** One staged path per matching path, in order and numbered from `next`
      on: the matching path without its primary action, plus `alt`. */
  lemma {:induction false} BranchSpec(paths: seq<TestCaseStep>, n: int, alt: StepAction, next: int)
    ensures var staged := Branch(paths, n, alt, next);
            && |staged| == |WithPrimary(paths, n)|
            && forall k :: 0 <= k < |staged| ==>
                 var source := WithPrimary(paths, n)[k];
                 source in paths && HasPrimary(source.actions, n)
                 && staged[k] == TestCaseStep(next + k, RemoveFirstPrimary(source.actions, n) + [alt])
  {
    if |paths| > 0 {
      var tail := paths[1..];
      if HasPrimary(paths[0].actions, n) {
        BranchSpec(tail, n, alt, next + 1);
        var staged := Branch(paths, n, alt, next);
        var rest := Branch(tail, n, alt, next + 1);
        var w := WithPrimary(paths, n);
        assert staged == [TestCaseStep(next, RemoveFirstPrimary(paths[0].actions, n) + [alt])] + rest;
        assert w == [paths[0]] + WithPrimary(tail, n);
        forall k | 0 <= k < |staged|
          ensures w[k] in paths && HasPrimary(w[k].actions, n)
          ensures staged[k] == TestCaseStep(next + k, RemoveFirstPrimary(w[k].actions, n) + [alt])
        {
          if k > 0 {
            assert staged[k] == rest[k - 1] && w[k] == WithPrimary(tail, n)[k - 1];
            assert w[k] in tail;
          }
        }
      } else {
        BranchSpec(tail, n, alt, next);
      }
    }
  }

  /** One iteration of the row loop: the header row is skipped, a numbered
      row extends every path, an alternative row branches. */
  function ApplyRow(b: Build, row: ScriptRow): Build {
    if row.rowIndex == 1 then b
    else match row.stepNumber
      case Some(n) =>
        Build(AppendToAll(b.paths, PrimaryAction(row, n)), b.nextNumber, n)
      case None =>
        var staged := Branch(b.paths, b.currentStep, AlternativeAction(row, b.currentStep), b.nextNumber);
        Build(b.paths + staged, b.nextNumber + |staged|, b.currentStep)
  }

  /** A numbered row extends every path by the same primary action, keeps
      the path numbers and the counter, and makes its step the current one. */
  lemma NumberedRow(b: Build, row: ScriptRow)
    requires row.rowIndex != 1 && row.stepNumber.Some?
    ensures var r := ApplyRow(b, row);
            var n := row.stepNumber.value;
            && r.currentStep == n && r.nextNumber == b.nextNumber
            && |r.paths| == |b.paths|
            && forall i :: 0 <= i < |r.paths| ==>
                 r.paths[i].number == b.paths[i].number
                 && r.paths[i].actions == b.paths[i].actions + [PrimaryAction(row, n)]
  {
    AppendToAllSpec(b.paths, PrimaryAction(row, row.stepNumber.value));
  }

  /** An alternative row keeps every path as it is and adds, after them, one
      path per path holding a primary action of the current step: that path
      without the primary, plus the alternative, numbered from the counter
      on. */
  lemma AlternativeRow(b: Build, row: ScriptRow)
    requires row.rowIndex != 1 && row.stepNumber.None?
    ensures var r := ApplyRow(b, row);
            var matching := WithPrimary(b.paths, b.currentStep);
            var alt := AlternativeAction(row, b.currentStep);
            && r.currentStep == b.currentStep
            && |r.paths| == |b.paths| + |matching|
            && r.paths[..|b.paths|] == b.paths
            && r.nextNumber == b.nextNumber + |matching|
            && forall k :: 0 <= k < |matching| ==>
                 r.paths[|b.paths| + k] == TestCaseStep(
                   b.nextNumber + k,
                   RemoveFirstPrimary(matching[k].actions, b.currentStep) + [alt])
  {
    var staged := Branch(b.paths, b.currentStep, AlternativeAction(row, b.currentStep), b.nextNumber);
    BranchSpec(b.paths, b.currentStep, AlternativeAction(row, b.currentStep), b.nextNumber);
    assert (b.paths + staged)[..|b.paths|] == b.paths;
  }

  function BuildFrom(b: Build, rows: seq<ScriptRow>): Build
    decreases |rows|
  {
    if |rows| == 0 then b else BuildFrom(ApplyRow(b, rows[0]), rows[1..])
  }

  /** The paths of one test case, built from its sheet's rows. */
  function GetTestCaseSteps(rows: seq<ScriptRow>): seq<TestCaseStep> {
    BuildFrom(Start, rows).paths
  }

  // ---------------------------------------------------------------------
  // Properties of the whole build
  // ---------------------------------------------------------------------

  /** Path numbers are 1, 2, ... in list order and the counter is one past
      the last of them. */
  predicate WellNumbered(b: Build) {
    && b.nextNumber == |b.paths| + 1
    && forall i :: 0 <= i < |b.paths| ==> b.paths[i].number == i + 1
  }

  lemma {:induction false} BuildFromKeepsNumbering(b: Build, rows: seq<ScriptRow>)
    requires WellNumbered(b)
    ensures WellNumbered(BuildFrom(b, rows))
    ensures |BuildFrom(b, rows).paths| >= |b.paths|
    decreases |rows|
  {
    if |rows| > 0 {
      var r := ApplyRow(b, rows[0]);
      assert WellNumbered(r) by {
        if rows[0].rowIndex != 1 && rows[0].stepNumber.None? {
          AlternativeRow(b, rows[0]);
          forall i | 0 <= i < |r.paths|
            ensures r.paths[i].number == i + 1
          {
            if i < |b.paths| {
              assert r.paths[i] == r.paths[..|b.paths|][i];
            } else {
              var k := i - |b.paths|;
              var matching := WithPrimary(b.paths, b.currentStep);
              var src := matching[k];
              assert r.paths[|b.paths| + k].number == b.nextNumber + k;
            }
          }
        } else if rows[0].rowIndex != 1 {
          NumberedRow(b, rows[0]);
        }
      }
      BuildFromKeepsNumbering(r, rows[1..]);
    }
  }

  /** Every case has at least one path, and its paths are numbered 1..k in
      list order, so their numbers are pairwise distinct. */
  lemma PathNumbering(rows: seq<ScriptRow>)
    ensures var paths := GetTestCaseSteps(rows);
      && |paths| >= 1
      && (forall i :: 0 <= i < |paths| ==> paths[i].number == i + 1)
      && (forall i, j :: 0 <= i < j < |paths| ==> paths[i].number != paths[j].number)
  {
    BuildFromKeepsNumbering(Start, rows);
  }

  /** A row is numbered, or it is the header. */
  predicate NumberedOrHeader(row: ScriptRow) {
    row.rowIndex == 1 || row.stepNumber.Some?
  }

  /** The primary actions of a script whose rows are all numbered. */
  function Primaries(rows: seq<ScriptRow>): seq<StepAction>
    requires forall i :: 0 <= i < |rows| ==> NumberedOrHeader(rows[i])
  {
    if |rows| == 0 then []
    else if rows[0].rowIndex == 1 then Primaries(rows[1..])
    else
      assert NumberedOrHeader(rows[0]);
      [PrimaryAction(rows[0], rows[0].stepNumber.value)] + Primaries(rows[1..])
  }

  lemma {:induction false} LinearFrom(acts: seq<StepAction>, next: int, current: int, rows: seq<ScriptRow>)
    requires forall i :: 0 <= i < |rows| ==> NumberedOrHeader(rows[i])
    ensures BuildFrom(Build([TestCaseStep(1, acts)], next, current), rows).paths
            == [TestCaseStep(1, acts + Primaries(rows))]
    decreases |rows|
  {
    var b := Build([TestCaseStep(1, acts)], next, current);
    if |rows| == 0 {
      assert acts + [] == acts;
    } else {
      if rows[0].rowIndex == 1 {
        LinearFrom(acts, next, current, rows[1..]);
      } else {
        var n := rows[0].stepNumber.value;
        var a := PrimaryAction(rows[0], n);
        var tail := Primaries(rows[1..]);
        LinearFrom(acts + [a], next, n, rows[1..]);
        calc {
          BuildFrom(b, rows).paths;
          BuildFrom(ApplyRow(b, rows[0]), rows[1..]).paths;
          { LinearRow(acts, next, current, rows[0]); }
          BuildFrom(Build([TestCaseStep(1, acts + [a])], next, n), rows[1..]).paths;
          [TestCaseStep(1, acts + [a] + tail)];
          { assert acts + [a] + tail == acts + ([a] + tail); }
          [TestCaseStep(1, acts + Primaries(rows))];
        }
      }
    }
  }

  /** A numbered row applied to a single path just extends it. */
  lemma LinearRow(acts: seq<StepAction>, next: int, current: int, row: ScriptRow)
    requires row.rowIndex != 1 && row.stepNumber.Some?
    ensures ApplyRow(Build([TestCaseStep(1, acts)], next, current), row)
            == Build([TestCaseStep(1, acts + [PrimaryAction(row, row.stepNumber.value)])], next, row.stepNumber.value)
  {
    var paths := [TestCaseStep(1, acts)];
    var a := PrimaryAction(row, row.stepNumber.value);
    assert paths[1..] == [];
    assert AppendToAll(paths, a) == [TestCaseStep(1, acts + [a])] + AppendToAll([], a);
  }

  /** A script without alternative rows yields exactly one path, numbered 1,
      whose actions are the rows' primary actions in row order. */
  lemma LinearScript(rows: seq<ScriptRow>)
    requires forall i :: 0 <= i < |rows| ==> NumberedOrHeader(rows[i])
    ensures GetTestCaseSteps(rows) == [TestCaseStep(1, Primaries(rows))]
  {
    LinearFrom([], 2, 0, rows);
    assert [] + Primaries(rows) == Primaries(rows);
  }

  /** No path holds more primary actions of a step than the numbered rows
      seen so far allow: at most one of a seen step, none of another. */
  ghost predicate Simple(paths: seq<TestCaseStep>, seen: set<int>) {
    forall i, m :: 0 <= i < |paths| ==>
      CountPrimary(paths[i].actions, m) <= (if m in seen then 1 else 0)
  }

  predicate IsNumbered(row: ScriptRow) {
    row.rowIndex != 1 && row.stepNumber.Some?
  }

  /** Step numbers of the numbered rows. */
  function NumberedSteps(rows: seq<ScriptRow>): set<int> {
    if |rows| == 0 then {}
    else if IsNumbered(rows[0]) then {rows[0].stepNumber.value} + NumberedSteps(rows[1..])
    else NumberedSteps(rows[1..])
  }

  /** No two numbered rows carry the same step number. */
  predicate DistinctSteps(rows: seq<ScriptRow>) {
    |rows| == 0 ||
    ((IsNumbered(rows[0]) ==> rows[0].stepNumber.value !in NumberedSteps(rows[1..]))
     && DistinctSteps(rows[1..]))
  }

  lemma NumberedRowKeepsSimple(b: Build, row: ScriptRow, seen: set<int>)
    requires Simple(b.paths, seen)
    requires row.rowIndex != 1 && row.stepNumber.Some? && row.stepNumber.value !in seen
    ensures Simple(ApplyRow(b, row).paths, seen + {row.stepNumber.value})
  {
    var r := ApplyRow(b, row);
    NumberedRow(b, row);
    var n := row.stepNumber.value;
    var a := PrimaryAction(row, n);
    forall i, m | 0 <= i < |r.paths|
      ensures CountPrimary(r.paths[i].actions, m) <= (if m in seen + {n} then 1 else 0)
    {
      CountPrimaryAppend(b.paths[i].actions, a, m);
      assert CountPrimary(b.paths[i].actions, m) <= (if m in seen then 1 else 0);
    }
  }

  lemma AlternativeRowKeepsSimple(b: Build, row: ScriptRow, seen: set<int>)
    requires Simple(b.paths, seen)
    requires row.rowIndex != 1 && row.stepNumber.None?
    ensures Simple(ApplyRow(b, row).paths, seen)
  {
    var r := ApplyRow(b, row);
    AlternativeRow(b, row);
    var cur := b.currentStep;
    var matching := WithPrimary(b.paths, cur);
    var alt := AlternativeAction(row, cur);
    forall i, m | 0 <= i < |r.paths|
      ensures CountPrimary(r.paths[i].actions, m) <= (if m in seen then 1 else 0)
    {
      if i < |b.paths| {
        assert r.paths[i] == r.paths[..|b.paths|][i];
        assert CountPrimary(b.paths[i].actions, m) <= (if m in seen then 1 else 0);
      } else {
        var k := i - |b.paths|;
        var src := matching[k];
        var j :| 0 <= j < |b.paths| && b.paths[j] == src;
        assert CountPrimary(b.paths[j].actions, m) <= (if m in seen then 1 else 0);
        StagedCount(src.actions, cur, alt, m);
      }
    }
  }

  /** Removing a primary and appending an alternative never raises the
      number of primary actions of any step. */
  lemma StagedCount(actions: seq<StepAction>, n: int, alt: StepAction, m: int)
    requires HasPrimary(actions, n) && !alt.firstInOrder
    ensures CountPrimary(RemoveFirstPrimary(actions, n) + [alt], m) <= CountPrimary(actions, m)
    ensures m == n ==> CountPrimary(RemoveFirstPrimary(actions, n) + [alt], m) == CountPrimary(actions, m) - 1
  {
    CountPrimaryAppend(RemoveFirstPrimary(actions, n), alt, m);
  }

  lemma ApplyRowKeepsSimple(b: Build, row: ScriptRow, seen: set<int>)
    requires Simple(b.paths, seen)
    requires IsNumbered(row) ==> row.stepNumber.value !in seen
    ensures Simple(ApplyRow(b, row).paths,
                   if IsNumbered(row) then seen + {row.stepNumber.value} else seen)
  {
    if row.rowIndex != 1 {
      if row.stepNumber.Some? {
        NumberedRowKeepsSimple(b, row, seen);
      } else {
        AlternativeRowKeepsSimple(b, row, seen);
      }
    }
  }

  lemma {:induction false} BuildFromKeepsSimple(b: Build, rows: seq<ScriptRow>, seen: set<int>)
    requires Simple(b.paths, seen)
    requires DistinctSteps(rows) && NumberedSteps(rows) !! seen
    ensures Simple(BuildFrom(b, rows).paths, seen + NumberedSteps(rows))
    decreases |rows|
  {
    if |rows| == 0 {
      assert seen + {} == seen;
    } else {
      var row := rows[0];
      var seen' := if IsNumbered(row) then seen + {row.stepNumber.value} else seen;
      ApplyRowKeepsSimple(b, row, seen);
      BuildFromKeepsSimple(ApplyRow(b, row), rows[1..], seen');
      assert seen' + NumberedSteps(rows[1..]) == seen + NumberedSteps(rows);
    }
  }

  /** When the numbered rows carry pairwise distinct step numbers, no path
      holds two primary actions of the same step. */
  lemma SimplePaths(rows: seq<ScriptRow>)
    requires DistinctSteps(rows)
    ensures forall i, m :: 0 <= i < |GetTestCaseSteps(rows)| ==>
              CountPrimary(GetTestCaseSteps(rows)[i].actions, m) <= 1
  {
    BuildFromKeepsSimple(Start, rows, {});
    var paths := GetTestCaseSteps(rows);
    forall i, m | 0 <= i < |paths|
      ensures CountPrimary(paths[i].actions, m) <= 1
    {
      assert CountPrimary(paths[i].actions, m) <= (if m in {} + NumberedSteps(rows) then 1 else 0);
    }
  }

  predicate IsAlternative(row: ScriptRow) {
    row.rowIndex != 1 && row.stepNumber.None?
  }

  /** With the first `p` paths holding exactly one primary action of step
      `k` and the others none, exactly the first `p` paths match. */
  lemma {:induction false} MatchingPrefix(paths: seq<TestCaseStep>, p: nat, k: int)
    requires p <= |paths|
    requires forall i :: 0 <= i < p ==> CountPrimary(paths[i].actions, k) == 1
    requires forall i :: p <= i < |paths| ==> CountPrimary(paths[i].actions, k) == 0
    ensures |WithPrimary(paths, k)| == p
  {
    if |paths| > 0 {
      HasPrimaryIffCount(paths[0].actions, k);
      if p > 0 {
        MatchingPrefix(paths[1..], p - 1, k);
      } else {
        MatchingPrefix(paths[1..], 0, k);
      }
    }
  }

  /** The primary actions of step `k` split the paths: exactly one in each
      of the first `p` paths, none in the others. */
  ghost predicate SplitAt(paths: seq<TestCaseStep>, p: nat, k: int) {
    && p <= |paths|
    && (forall i {:trigger CountPrimary(paths[i].actions, k)} :: 0 <= i < p ==> CountPrimary(paths[i].actions, k) == 1)
    && (forall i {:trigger CountPrimary(paths[i].actions, k)} :: p <= i < |paths| ==> CountPrimary(paths[i].actions, k) == 0)
  }

  lemma OneAlternative(c: Build, row: ScriptRow, p: nat)
    requires SplitAt(c.paths, p, c.currentStep)
    requires IsAlternative(row)
    ensures var r := ApplyRow(c, row);
      && r.currentStep == c.currentStep
      && |r.paths| == |c.paths| + p
      && SplitAt(r.paths, p, c.currentStep)
  {
    var k := c.currentStep;
    var r := ApplyRow(c, row);
    AlternativeRow(c, row);
    var matching := WithPrimary(c.paths, k);
    MatchingPrefix(c.paths, p, k);
    forall i | 0 <= i < p
      ensures CountPrimary(r.paths[i].actions, k) == 1
    {
      assert r.paths[i] == r.paths[..|c.paths|][i];
    }
    forall i | p <= i < |r.paths|
      ensures CountPrimary(r.paths[i].actions, k) == 0
    {
      if i < |c.paths| {
        assert r.paths[i] == r.paths[..|c.paths|][i];
      } else {
        var src := matching[i - |c.paths|];
        assert src in matching;
        var j :| 0 <= j < |c.paths| && c.paths[j] == src;
        HasPrimaryIffCount(src.actions, k);
        StagedCount(src.actions, k, AlternativeAction(row, k), k);
      }
    }
  }

  /** `p` added `n` times. */
  function Times(p: nat, n: nat): (t: nat)
    ensures t == p * n
  {
    if n == 0 then 0 else p + Times(p, n - 1)
  }

  lemma {:induction false} AlternativesAdd(c: Build, alts: seq<ScriptRow>, p: nat)
    requires SplitAt(c.paths, p, c.currentStep)
    requires forall i :: 0 <= i < |alts| ==> IsAlternative(alts[i])
    ensures |BuildFrom(c, alts).paths| == |c.paths| + Times(p, |alts|)
    decreases |alts|
  {
    if |alts| == 0 {
      assert BuildFrom(c, alts) == c;
    } else {
      var c1 := AlternativesStep(c, alts, p);
      var more := alts[1..];
      AlternativesAdd(c1, more, p);
      assert Times(p, |alts|) == p + Times(p, |more|);
      assert |BuildFrom(c, alts).paths| == |BuildFrom(c1, more).paths|;
    }
  }

  /** The first alternative row of a run, and what stays for the rest. */
  lemma AlternativesStep(c: Build, alts: seq<ScriptRow>, p: nat) returns (c1: Build)
    requires SplitAt(c.paths, p, c.currentStep)
    requires |alts| > 0 && forall i :: 0 <= i < |alts| ==> IsAlternative(alts[i])
    ensures |c1.paths| == |c.paths| + p && SplitAt(c1.paths, p, c1.currentStep)
    ensures forall i :: 0 <= i < |alts| - 1 ==> IsAlternative(alts[1..][i])
    ensures BuildFrom(c, alts) == BuildFrom(c1, alts[1..])
  {
    c1 := ApplyRow(c, alts[0]);
    OneAlternative(c, alts[0], p);
  }

  /** A numbered row for a step no path holds yet, followed by `a`
      alternative rows, multiplies the number of paths by `1 + a`. */
  lemma BranchingMultiplies(b: Build, numbered: ScriptRow, alts: seq<ScriptRow>)
    requires IsNumbered(numbered)
    requires forall i :: 0 <= i < |b.paths| ==> !HasPrimary(b.paths[i].actions, numbered.stepNumber.value)
    requires forall i :: 0 <= i < |alts| ==> IsAlternative(alts[i])
    ensures |BuildFrom(b, [numbered] + alts).paths| == |b.paths| * (1 + |alts|)
  {
    var k := numbered.stepNumber.value;
    var r := ApplyRow(b, numbered);
    NumberedRow(b, numbered);
    assert ([numbered] + alts)[1..] == alts;
    forall i | 0 <= i < |r.paths|
      ensures CountPrimary(r.paths[i].actions, k) == 1
    {
      HasPrimaryIffCount(b.paths[i].actions, k);
      CountPrimaryAppend(b.paths[i].actions, PrimaryAction(numbered, k), k);
    }
    AlternativesAdd(r, alts, |r.paths|);
    assert |b.paths| * (1 + |alts|) == |b.paths| + |b.paths| * |alts|;
  }
}

=== FILE: columns.dfy ===
/** `ColumnIndex`: the zero-based column of a spreadsheet cell reference
    such as "AB12". The reference is upper-cased, its leading letters are
    read as a base-26 numeral with A = 1, and one is subtracted. Reading
    stops at the first character that sorts below 'A' (the row digits). */
module Columns {
  import opened Text

  /** Length of the leading run of characters that do not sort below 'A'. */
  function LetterRun(s: string): (n: nat)
    ensures n <= |s|
    ensures forall i :: 0 <= i < n ==> s[i] >= 'A'
    ensures n < |s| ==> s[n] < 'A'
  {
    if |s| > 0 && s[0] >= 'A' then 1 + LetterRun(s[1..]) else 0
  }

  /** Bijective base-26 value of `s`, each character worth its code minus 64
      (so 'A' = 1 and 'Z' = 26), most significant character first. */
  function Base26(s: string): int {
    if |s| == 0 then 0 else Base26(s[..|s| - 1]) * 26 + (s[|s| - 1] as int - 64)
  }

  /** The `for` loop of `ColumnIndex`, resumed at position `ix` with the
      running value `ci`. */
  function Accumulate(s: string, ix: nat, ci: int): (r: int)
    requires ix <= |s|
    requires forall i :: 0 <= i < ix ==> s[i] >= 'A'
    requires ci == Base26(s[..ix])
    ensures r == Base26(s[..LetterRun(s)])
    decreases |s| - ix
  {
    if ix < |s| && s[ix] >= 'A' then
      assert s[..ix + 1][..ix] == s[..ix];
      Accumulate(s, ix + 1, ci * 26 + (s[ix] as int - 64))
    else
      assert LetterRun(s) == ix;
      ci
  }

  function ColumnIndex(reference: string): (r: int)
    ensures var u := ToUpper(reference); r == Base26(u[..LetterRun(u)]) - 1
  {
    Accumulate(ToUpper(reference), 0, 0) - 1
  }

  /** The letters that name the column numbered `n` (one-based). */
  function ColumnLetters(n: nat): (s: string)
    requires n >= 1
    ensures |s| > 0 && forall i :: 0 <= i < |s| ==> 'A' <= s[i] <= 'Z'
  {
    var last := [(65 + (n - 1) % 26) as char];
    if n <= 26 then last else ColumnLetters((n - 1) / 26) + last
  }

  lemma {:induction false} ColumnLettersValue(n: nat)
    requires n >= 1
    ensures Base26(ColumnLetters(n)) == n
  {
    var s := ColumnLetters(n);
    if n > 26 {
      ColumnLettersValue((n - 1) / 26);
      assert s[..|s| - 1] == ColumnLetters((n - 1) / 26);
    }
  }

  /** `ColumnIndex` inverts column naming: the reference made of the letters
      of zero-based column `col` followed by any row number yields `col`. */
  lemma ColumnIndexRoundTrip(col: nat, row: nat)
    ensures ColumnIndex(ColumnLetters(col + 1) + NatToDigits(row)) == col
  {
    var letters := ColumnLetters(col + 1);
    var digits := NatToDigits(row);
    var s := letters + digits;
    assert ToUpper(s) == s;
    assert LetterRun(s) == |letters| by {
      assert s[|letters|] == digits[0];
    }
    assert s[..|letters|] == letters;
    ColumnLettersValue(col + 1);
  }

  /** The letter case of a reference does not matter. */
  lemma ColumnIndexIgnoresCase(reference: string)
    ensures ColumnIndex(ToLower(reference)) == ColumnIndex(reference)
  {
    assert ToUpper(ToLower(reference)) == ToUpper(reference);
  }

  /** "A1" is column 0. */
  lemma ColumnIndexA1()
    ensures ColumnIndex("A1") == 0
  {
    ColumnIndexRoundTrip(0, 1);
    assert ColumnLetters(1) + NatToDigits(1) == "A1";
  }

  /** "Z9" is column 25. */
  lemma ColumnIndexZ9()
    ensures ColumnIndex("Z9") == 25
  {
    ColumnIndexRoundTrip(25, 9);
    assert ColumnLetters(26) + NatToDigits(9) == "Z9";
  }

  /** "AA3" is column 26. */
  lemma ColumnIndexAA3()
    ensures ColumnIndex("AA3") == 26
  {
    ColumnIndexRoundTrip(26, 3);
    assert ColumnLetters(1) == "A";
    assert ColumnLetters(27) == "AA";
    assert ColumnLetters(27) + NatToDigits(3) == "AA3";
  }
}

=== FILE: driver.dfy ===
/** `ProcessTestCase`: one path of a test case run as one conversation. For
    every action in order the runner posts the input, tagged with a
    correlation token built from the current watermark, then polls until a
    batch of activities arrives or the time runs out. A reply is compared
    with the action's expected response; the first mismatch fails the path
    and ends it. A placeholder that cannot be resolved aborts the run.

    The conversation service is a parameter: for every action, the batches
    it returns to successive polls within the polling window. */
module Driver {
  import opened Wrappers
  import opened Text
  import opened Model
  import Placeholders
  import Replies

  // ---------------------------------------------------------------------
  // Correlation token
  // ---------------------------------------------------------------------

  /** `GetClientActivityToResponse`: the client id, a dot, the watermark. */
  function Token(clientId: string, watermark: nat): string {
    clientId + "." + NatToDigits(watermark)
  }

  /** Index of the last `.` in `s`. */
  function LastDot(s: string): (r: Option<nat>)
    ensures r.Some? ==> r.value < |s| && s[r.value] == '.' && Lacks(s[r.value + 1..], '.')
    ensures r.None? ==> Lacks(s, '.')
  {
    if |s| == 0 then None
    else if s[|s| - 1] == '.' then Some(|s| - 1)
    else
      match LastDot(s[..|s| - 1])
      case None => None
      case Some(i) =>
        assert s[i + 1..] == s[..|s| - 1][i + 1..] + [s[|s| - 1]];
        Some(i)
  }

  /** Splits a token at its last dot into the client id and the watermark. */
  function ParseToken(token: string): Option<(string, nat)> {
    var i :- LastDot(token);
    var d := token[i + 1..];
    if |d| > 0 && AllDigits(d) then Some((token[..i], DigitsValue(d))) else None
  }

  lemma {:induction false} LastDotOf(id: string, d: string)
    requires Lacks(d, '.')
    ensures LastDot(id + "." + d) == Some(|id|)
  {
    if |d| > 0 {
      var s := id + "." + d;
      assert s[..|s| - 1] == id + "." + d[..|d| - 1];
      LastDotOf(id, d[..|d| - 1]);
    }
  }

  /** The client id and the watermark can be read back from a token, even
      though the client id itself holds a dot. */
  lemma TokenRoundTrip(clientId: string, watermark: nat)
    ensures ParseToken(Token(clientId, watermark)) == Some((clientId, watermark))
  {
    var d := NatToDigits(watermark);
    assert Lacks(d, '.') by {
      assert forall i :: 0 <= i < |d| ==> IsDigit(d[i]);
    }
    LastDotOf(clientId, d);
    var t := Token(clientId, watermark);
    assert t[|clientId| + 1..] == d;
    assert t[..|clientId|] == clientId;
    DigitsRoundTrip(watermark);
  }

  // ---------------------------------------------------------------------
  // One action
  // ---------------------------------------------------------------------

  /** Which expected text a reply is compared with: the cell as written, as
      the runner does, or the cell with its placeholders resolved. */
  datatype Policy = AsWritten | ResolvedExpected

  datatype Outcome = NoReply | Matched | Mismatched | Unresolved(error: Placeholders.ResolveError)

  predicate Decisive(o: Outcome) {
    o.Mismatched? || o.Unresolved?
  }

  /** The poll loop ends at the first non-empty batch. */
  function FirstReply(polls: seq<seq<Replies.Activity>>): (r: Option<nat>)
    ensures r.Some? ==> r.value < |polls| && |polls[r.value]| > 0
    ensures r.Some? ==> forall k :: 0 <= k < r.value ==> |polls[k]| == 0
    ensures r.None? ==> forall k :: 0 <= k < |polls| ==> |polls[k]| == 0
  {
    if |polls| == 0 then None
    else if |polls[0]| > 0 then Some(0)
    else match FirstReply(polls[1..])
      case None => None
      case Some(k) => Some(k + 1)
  }

  /** How many activities the reply to an action consumed. */
  function ReplySize(polls: seq<seq<Replies.Activity>>): nat {
    match FirstReply(polls)
    case None => 0
    case Some(k) => |polls[k]|
  }

  /** What happens to one action of `path` whose polls returned `polls`:
      no reply leaves it unchecked; otherwise the placeholders of the
      expected response are resolved against the path and the reply is
      compared with the text the policy picks. */
  function ActionOutcome(action: StepAction, path: TestCaseStep, polls: seq<seq<Replies.Activity>>, policy: Policy): Outcome
  {
    match FirstReply(polls)
    case None => NoReply
    case Some(k) =>
      var reply := Replies.ReplyText(polls[k]);
      match Placeholders.Resolve(action.expectedResponse, path.actions)
      case Failure(e) => Unresolved(e)
      case Success(resolved) =>
        var expected := if policy.AsWritten? then action.expectedResponse else resolved;
        if Replies.Matches(reply, expected) then Matched else Mismatched
  }

  /** The two comparisons differ only through placeholders: when the
      expected response holds no `$`, the action comes to the same outcome
      whichever text the reply is compared with. */
  lemma PoliciesAgree(action: StepAction, path: TestCaseStep, polls: seq<seq<Replies.Activity>>)
    requires Lacks(action.expectedResponse, '$')
    ensures ActionOutcome(action, path, polls, AsWritten) == ActionOutcome(action, path, polls, ResolvedExpected)
  {
    Placeholders.ResolveDollarFree(action.expectedResponse, path.actions);
  }

  // ---------------------------------------------------------------------
  // A whole path
  // ---------------------------------------------------------------------

  /** For every action of a path, the batches its polls returned. */
  type Transcript = seq<seq<seq<Replies.Activity>>>

  datatype Verdict = Passed | Failed(step: int) | Crashed(error: Placeholders.ResolveError)

  /** What the runner sent and saw for one action: the client id and
      watermark the correlation token is formatted from, the watermark its
      polls asked from, and the outcome. */
  datatype Exchange = Exchange(clientId: string, postWatermark: nat, pollWatermark: nat, outcome: Outcome) {
    /** The `clientActivityId` posted in the channel data. */
    function TokenText(): string {
      Token(clientId, postWatermark)
    }
  }

  datatype Run = Run(exchanges: seq<Exchange>, verdict: Verdict)

  /** The outcome every action of a path would have. */
  function Outcomes(path: TestCaseStep, transcript: Transcript, policy: Policy): (outs: seq<Outcome>)
    requires |transcript| == |path.actions|
    ensures |outs| == |path.actions|
    ensures forall j :: 0 <= j < |outs| ==> outs[j] == ActionOutcome(path.actions[j], path, transcript[j], policy)
  {
    seq(|path.actions|, j requires 0 <= j < |path.actions| => ActionOutcome(path.actions[j], path, transcript[j], policy))
  }

  /** Activities consumed by the replies to the first `j` actions. */
  function Consumed(transcript: Transcript, j: nat): nat
    requires j <= |transcript|
  {
    if j == 0 then 0 else Consumed(transcript, j - 1) + ReplySize(transcript[j - 1])
  }

  /** The watermark in the token of action `j`: every earlier reply
      activity, plus one for every earlier post except the first. */
  function PostWatermark(transcript: Transcript, j: nat): nat
    requires j <= |transcript|
  {
    if j == 0 then 0 else Consumed(transcript, j) + j - 1
  }

  /** What the runner sends and sees for action `j`: the token with the
      closed-form watermark, the watermark of its polls, its outcome. */
  function ExpectedExchange(clientId: string, transcript: Transcript, outs: seq<Outcome>, j: nat): Exchange
    requires j < |transcript| && j < |outs|
  {
    Exchange(clientId, PostWatermark(transcript, j), Consumed(transcript, j) + j, outs[j])
  }

  /** The verdict of a path from action `j` on, given the outcome of every
      action: the first decisive outcome decides, none means the path
      passed. */
  function Decide(outs: seq<Outcome>, path: TestCaseStep, j: nat): Verdict
    requires |outs| == |path.actions| && j <= |outs|
    decreases |outs| - j
  {
    if j == |outs| then Passed
    else match outs[j]
      case Unresolved(e) => Crashed(e)
      case Mismatched => Failed(path.actions[j].stepNumber)
      case _ => Decide(outs, path, j + 1)
  }

  /** How many actions are run from action `j` on. */
  function Processed(outs: seq<Outcome>, j: nat): (n: nat)
    requires j <= |outs|
    ensures n <= |outs| - j
    decreases |outs| - j
  {
    if j == |outs| then 0
    else if Decisive(outs[j]) then 1
    else 1 + Processed(outs, j + 1)
  }

  /** The action loop of `ProcessTestCase`, given what every action comes
      to: post with the current watermark, count the post (all but the
      first), poll, count the reply, stop at the first decisive outcome. */
  method RunActions(path: TestCaseStep, clientId: string, transcript: Transcript, outs: seq<Outcome>)
    returns (run: Run)
    requires |transcript| == |path.actions| && |outs| == |path.actions|
    ensures run.verdict == Decide(outs, path, 0)
    ensures |run.exchanges| == Processed(outs, 0)
    ensures forall j :: 0 <= j < |run.exchanges| ==>
              run.exchanges[j] == ExpectedExchange(clientId, transcript, outs, j)
  {
    var watermark: nat := 0;
    var first := true;
    var exchanges: seq<Exchange> := [];
    var verdict := Passed;
    var stop := false;
    var j := 0;
    while j < |path.actions| && !stop
      invariant 0 <= j <= |path.actions| && |exchanges| == j
      invariant first <==> j == 0
      invariant watermark == PostWatermark(transcript, j)
      invariant forall t :: 0 <= t < j ==> exchanges[t] == ExpectedExchange(clientId, transcript, outs, t)
      invariant stop ==> verdict == Decide(outs, path, 0) && Processed(outs, 0) == j
      invariant !stop ==> Decide(outs, path, 0) == Decide(outs, path, j)
                          && Processed(outs, 0) == j + Processed(outs, j)
                          && verdict == Passed
      decreases |path.actions| - j, !stop
    {
      var postAt := watermark;
      if first {
        first := false;
      } else {
        watermark := watermark + 1;
      }
      var pollAt := watermark;
      assert pollAt == Consumed(transcript, j) + j;
      watermark := watermark + ReplySize(transcript[j]);
      WatermarkStep(transcript, j);
      var e := Exchange(clientId, postAt, pollAt, outs[j]);
      assert forall t :: 0 <= t < j ==> (exchanges + [e])[t] == exchanges[t];
      exchanges := exchanges + [e];
      match outs[j] {
        case Unresolved(err) =>
          verdict := Crashed(err);
          stop := true;
        case Mismatched =>
          verdict := Failed(path.actions[j].stepNumber);
          stop := true;
        case _ =>
      }
      j := j + 1;
    }
    run := Run(exchanges, verdict);
  }

  /** `ProcessTestCase`: every action's outcome (a pure function of the
      path, its polls and the policy), then the action loop. */
  method ProcessTestCase(path: TestCaseStep, clientId: string, transcript: Transcript, policy: Policy)
    returns (run: Run)
    requires |transcript| == |path.actions|
    ensures run.verdict == Decide(Outcomes(path, transcript, policy), path, 0)
    ensures |run.exchanges| == Processed(Outcomes(path, transcript, policy), 0)
    ensures forall j :: 0 <= j < |run.exchanges| ==>
              run.exchanges[j] == ExpectedExchange(clientId, transcript, Outcomes(path, transcript, policy), j)
  {
    var outs := Outcomes(path, transcript, policy);
    run := RunActions(path, clientId, transcript, outs);
  }

  // ---------------------------------------------------------------------
  // Properties
  // ---------------------------------------------------------------------

  /** A path passes exactly when no action's reply mismatched and every
      placeholder that was needed resolved. */
  lemma {:induction false} DecidePassed(outs: seq<Outcome>, path: TestCaseStep, j: nat)
    requires |outs| == |path.actions| && j <= |outs|
    ensures Decide(outs, path, j) == Passed <==> forall t :: j <= t < |outs| ==> !Decisive(outs[t])
    decreases |outs| - j
  {
    if j < |outs| {
      DecidePassed(outs, path, j + 1);
    }
  }

  /** A failed path failed at its first mismatch, before which nothing was
      decisive; a crashed one at its first unresolved placeholder. */
  lemma {:induction false} DecideStops(outs: seq<Outcome>, path: TestCaseStep, j: nat)
    requires |outs| == |path.actions| && j <= |outs|
    requires !Decide(outs, path, j).Passed?
    ensures exists t :: j <= t < |outs| && Decisive(outs[t])
              && (forall u :: j <= u < t ==> !Decisive(outs[u]))
              && Processed(outs, j) == t - j + 1
              && Decide(outs, path, j) == (if outs[t].Mismatched? then Failed(path.actions[t].stepNumber)
                                           else Crashed(outs[t].error))
    decreases |outs| - j
  {
    if !Decisive(outs[j]) {
      DecideStops(outs, path, j + 1);
      var t :| j + 1 <= t < |outs| && Decisive(outs[t])
               && (forall u :: j + 1 <= u < t ==> !Decisive(outs[u]))
               && Processed(outs, j + 1) == t - j
               && Decide(outs, path, j + 1) == (if outs[t].Mismatched? then Failed(path.actions[t].stepNumber)
                                                else Crashed(outs[t].error));
      assert forall u :: j <= u < t ==> !Decisive(outs[u]);
    }
  }

  /** A passing path runs every action. */
  lemma {:induction false} PassedRunsAll(outs: seq<Outcome>, path: TestCaseStep, j: nat)
    requires |outs| == |path.actions| && j <= |outs|
    requires Decide(outs, path, j) == Passed
    ensures Processed(outs, j) == |outs| - j
    decreases |outs| - j
  {
    if j < |outs| {
      PassedRunsAll(outs, path, j + 1);
    }
  }

  /** An action whose polls all came back empty is skipped: it is not
      checked and the next token's watermark only counts its post. */
  lemma TimeoutIsNoOp(path: TestCaseStep, transcript: Transcript, policy: Policy, j: nat)
    requires |transcript| == |path.actions| && j < |path.actions|
    requires forall k :: 0 <= k < |transcript[j]| ==> |transcript[j][k]| == 0
    ensures Outcomes(path, transcript, policy)[j] == NoReply
    ensures Consumed(transcript, j + 1) == Consumed(transcript, j)
    ensures PostWatermark(transcript, j + 1) == Consumed(transcript, j) + j
  {
  }

  /** The token of every action after the first counts the earlier posts
      but the first. */
  lemma WatermarkStep(transcript: Transcript, j: nat)
    requires j + 1 <= |transcript|
    ensures PostWatermark(transcript, j + 1)
            == PostWatermark(transcript, j) + (if j == 0 then 0 else 1) + ReplySize(transcript[j])
  {
    assert Consumed(transcript, j + 1) == Consumed(transcript, j) + ReplySize(transcript[j]);
    if j == 0 {
      assert Consumed(transcript, 0) == 0;
    }
  }

  // ---------------------------------------------------------------------
  // The expected text a reply is compared with
  // ---------------------------------------------------------------------

  /** The two comparisons disagree on an action exactly when a reply
      arrived, the expected response resolved, and the reply matches one of
      the cell as written and its resolution but not the other. */
  lemma PoliciesDiffer(action: StepAction, path: TestCaseStep, polls: seq<seq<Replies.Activity>>)
    ensures var res := Placeholders.Resolve(action.expectedResponse, path.actions);
            (ActionOutcome(action, path, polls, AsWritten) != ActionOutcome(action, path, polls, ResolvedExpected))
            <==> (&& FirstReply(polls).Some? && res.Success?
                  && Replies.Matches(Replies.ReplyText(polls[FirstReply(polls).value]), action.expectedResponse)
                     != Replies.Matches(Replies.ReplyText(polls[FirstReply(polls).value]), res.value))
  {
  }

  /** With the resolved text, a reply to a template made of clean pieces is
      compared with the template's placeholders replaced by their values. */
  lemma ResolvedPolicyCompares(action: StepAction, path: TestCaseStep, polls: seq<seq<Replies.Activity>>,
                               ps: seq<Placeholders.Piece>)
    requires FirstReply(polls).Some?
    requires Placeholders.Clean(ps) && Placeholders.DollarFree(path.actions)
    requires action.expectedResponse == Placeholders.Render(ps)
    requires forall i :: 0 <= i < |ps| && ps[i].Ref? ==> Placeholders.Value(ps[i].ref, path.actions).Success?
    ensures ActionOutcome(action, path, polls, ResolvedExpected)
            == if Replies.Matches(Replies.ReplyText(polls[FirstReply(polls).value]),
                                  Placeholders.Render(Placeholders.Expand(ps, path.actions)))
               then Matched else Mismatched
  {
    Placeholders.ResolveAll(ps, path.actions);
  }

  /** The path of the example: one action whose expected response refers to
      its own input. */
  function EchoPath(): TestCaseStep {
    TestCaseStep(1, [StepAction(1, true, "hi", "see you ${1}", [])])
  }

  function EchoTranscript(): Transcript {
    [[[Replies.Activity("see you hi", [])]]]
  }

  lemma EchoReply(polls: seq<seq<Replies.Activity>>)
    requires polls == EchoTranscript()[0]
    ensures FirstReply(polls) == Some(0)
    ensures Replies.ReplyText(polls[0]) == "see you hi"
  {
    var batch := polls[0];
    assert Replies.BatchFragments(batch) == Replies.Fragments(batch[0]) + Replies.BatchFragments(batch[1..]);
    assert Replies.BatchFragments(batch) == ["see you hi"];
  }

  lemma EchoTexts(reply: string, template: string)
    requires reply == "see you hi" && template == "see you ${1}"
    ensures !Replies.Matches(reply, template)
    ensures Replies.Matches(reply, reply)
  {
    Replies.NormalizePlain(reply);
    Replies.NormalizePlain(template);
    assert reply[8] != template[8];
  }

  /** The bot answers "see you hi" to "hi", exactly what "see you ${1}"
      describes: the runner as written fails the path, comparing with the
      resolved text passes it. */
  lemma AsWrittenRejectsResolvedReply()
    ensures Decide(Outcomes(EchoPath(), EchoTranscript(), AsWritten), EchoPath(), 0) == Failed(1)
    ensures Decide(Outcomes(EchoPath(), EchoTranscript(), ResolvedExpected), EchoPath(), 0) == Passed
  {
    var path := EchoPath();
    var polls := EchoTranscript()[0];
    var action := path.actions[0];
    EchoReply(polls);
    Placeholders.ResolveInputExample(action.expectedResponse, path.actions);
    EchoTexts("see you hi", action.expectedResponse);
    var asWritten := Outcomes(path, EchoTranscript(), AsWritten);
    var resolved := Outcomes(path, EchoTranscript(), ResolvedExpected);
    assert asWritten[0] == Mismatched;
    assert resolved[0] == Matched;
    assert Decide(asWritten, path, 1) == Passed;
    assert Decide(resolved, path, 1) == Passed;
  }
}

=== FILE: model.dfy ===
/** The data classes of the test suite (`TestCase`, `TestCaseStep`,
    `StepAction`, `Entity`) as immutable values. A `TestCaseStep` is one
    linear conversation path through a scripted test case. */
module Model {

  /** An entity expected in a user input: its position and its text. */
  datatype Entity = Entity(index: int, name: string)

  /** One scripted turn. `firstInOrder` marks the primary action of its step
      number; alternatives carry `false`. */
  datatype StepAction = StepAction(
    stepNumber: int,
    firstInOrder: bool,
    input: string,
    expectedResponse: string,
    entities: seq<Entity>)

  /** One linear conversation path, identified by `number` within its case. */
  datatype TestCaseStep = TestCaseStep(number: int, actions: seq<StepAction>)

  /** A test case: one script sheet and all the paths built from it. */
  datatype TestCase = TestCase(sheetName: string, description: string, steps: seq<TestCaseStep>)
}

=== FILE: orchestrator.dfy ===
/** `Main`: every path of every test case is run as its own conversation,
    in order, and counted as passed or failed. A path whose expected
    response cannot be resolved aborts the whole run, so no totals are
    reported. */
module Orchestrator {
  import opened Model
  import Placeholders
  import Driver
  import Suite

  /** One conversation: the generated client id and what the service
      returned to the polls of each action. */
  datatype Session = Session(clientId: string, transcript: Driver.Transcript)

  datatype SuiteResult = Totals(passed: nat, failed: nat) | Aborted(error: Placeholders.ResolveError)

  /** The paths of all cases, case by case, in order. */
  function Paths(cases: seq<TestCase>): (ps: seq<TestCaseStep>)
    ensures |cases| > 0 ==> ps == cases[0].steps + Paths(cases[1..])
  {
    if |cases| == 0 then [] else cases[0].steps + Paths(cases[1..])
  }

  predicate Fits(paths: seq<TestCaseStep>, sessions: seq<Session>) {
    |sessions| == |paths| && forall k :: 0 <= k < |paths| ==> |sessions[k].transcript| == |paths[k].actions|
  }

  /** The verdict of every path. */
  function Verdicts(paths: seq<TestCaseStep>, sessions: seq<Session>, policy: Driver.Policy): (vs: seq<Driver.Verdict>)
    requires Fits(paths, sessions)
    ensures |vs| == |paths|
    ensures forall k :: 0 <= k < |paths| ==>
              vs[k] == Driver.Decide(Driver.Outcomes(paths[k], sessions[k].transcript, policy), paths[k], 0)
  {
    seq(|paths|, k requires 0 <= k < |paths| =>
      Driver.Decide(Driver.Outcomes(paths[k], sessions[k].transcript, policy), paths[k], 0))
  }

  function CountPassed(vs: seq<Driver.Verdict>): (n: nat)
    ensures n <= |vs|
  {
    if |vs| == 0 then 0 else (if vs[|vs| - 1].Passed? then 1 else 0) + CountPassed(vs[..|vs| - 1])
  }

  predicate NoCrash(vs: seq<Driver.Verdict>) {
    forall k :: 0 <= k < |vs| ==> !vs[k].Crashed?
  }

  lemma Extend(vs: seq<Driver.Verdict>, k: nat)
    requires k < |vs|
    ensures CountPassed(vs[..k + 1]) == CountPassed(vs[..k]) + (if vs[k].Passed? then 1 else 0)
    ensures NoCrash(vs[..k]) && !vs[k].Crashed? ==> NoCrash(vs[..k + 1])
  {
    assert vs[..k + 1][..k] == vs[..k];
  }

  /** The loops of `Main` with the pass and fail counters. */
  method RunPaths(paths: seq<TestCaseStep>, sessions: seq<Session>, policy: Driver.Policy)
    returns (result: SuiteResult)
    requires Fits(paths, sessions)
    ensures result.Totals? ==>
              && NoCrash(Verdicts(paths, sessions, policy))
              && result.passed + result.failed == |paths|
              && result.passed == CountPassed(Verdicts(paths, sessions, policy))
    ensures result.Aborted? ==>
              exists k :: 0 <= k < |paths| && Verdicts(paths, sessions, policy)[k] == Driver.Crashed(result.error)
                && NoCrash(Verdicts(paths, sessions, policy)[..k])
  {
    ghost var vs := Verdicts(paths, sessions, policy);
    var passed := 0;
    var failed := 0;
    var k := 0;
    while k < |paths|
      invariant 0 <= k <= |paths|
      invariant NoCrash(vs[..k])
      invariant passed + failed == k && passed == CountPassed(vs[..k])
    {
      var verdict := RunPath(paths, sessions, policy, k);
      Extend(vs, k);
      match verdict {
        case Crashed(e) =>
          assert vs[k] == Driver.Crashed(e);
          return Aborted(e);
        case Passed =>
          passed := passed + 1;
        case Failed(_) =>
          failed := failed + 1;
      }
      k := k + 1;
    }
    assert vs[..k] == vs;
    return Totals(passed, failed);
  }

  /** The conversation of path `k`, reduced to its verdict. */
  method RunPath(paths: seq<TestCaseStep>, sessions: seq<Session>, policy: Driver.Policy, k: nat)
    returns (verdict: Driver.Verdict)
    requires Fits(paths, sessions) && k < |paths|
    ensures verdict == Verdicts(paths, sessions, policy)[k]
  {
    var run := Driver.ProcessTestCase(paths[k], sessions[k].clientId, sessions[k].transcript, policy);
    verdict := run.verdict;
  }

  /** `Main`: load the suite from the workbook, then run every path of
      every case. */
  method RunSuite(wb: Suite.Workbook, sessions: seq<Session>, policy: Driver.Policy)
    returns (result: SuiteResult)
    requires Fits(Paths(Suite.TestCases(wb)), sessions)
    ensures result.Totals? ==>
              && NoCrash(Verdicts(Paths(Suite.TestCases(wb)), sessions, policy))
              && result.passed + result.failed == |Paths(Suite.TestCases(wb))|
              && result.passed == CountPassed(Verdicts(Paths(Suite.TestCases(wb)), sessions, policy))
    ensures result.Aborted? ==>
              exists k :: 0 <= k < |Paths(Suite.TestCases(wb))|
                && Verdicts(Paths(Suite.TestCases(wb)), sessions, policy)[k] == Driver.Crashed(result.error)
                && NoCrash(Verdicts(Paths(Suite.TestCases(wb)), sessions, policy)[..k])
  {
    var cases := Suite.TestCases(wb);
    result := RunPaths(Paths(cases), sessions, policy);
  }

  lemma {:induction false} CountPassedAppend(v1: seq<Driver.Verdict>, v2: seq<Driver.Verdict>)
    ensures CountPassed(v1 + v2) == CountPassed(v1) + CountPassed(v2)
    decreases |v2|
  {
    if |v2| == 0 {
      assert v1 + v2 == v1;
    } else {
      var w := v1 + v2;
      assert w[..|w| - 1] == v1 + v2[..|v2| - 1];
      assert w[|w| - 1] == v2[|v2| - 1];
      CountPassedAppend(v1, v2[..|v2| - 1]);
    }
  }

  lemma NoCrashAppend(v1: seq<Driver.Verdict>, v2: seq<Driver.Verdict>)
    ensures NoCrash(v1 + v2) <==> NoCrash(v1) && NoCrash(v2)
  {
    assert forall k :: 0 <= k < |v1| ==> (v1 + v2)[k] == v1[k];
    assert forall k :: 0 <= k < |v2| ==> (v1 + v2)[|v1| + k] == v2[k];
  }

  lemma VerdictsAppend(p1: seq<TestCaseStep>, s1: seq<Session>, p2: seq<TestCaseStep>, s2: seq<Session>, policy: Driver.Policy)
    requires Fits(p1, s1) && Fits(p2, s2)
    ensures Fits(p1 + p2, s1 + s2)
    ensures Verdicts(p1 + p2, s1 + s2, policy) == Verdicts(p1, s1, policy) + Verdicts(p2, s2, policy)
  {
    assert forall k :: 0 <= k < |p2| ==> (p1 + p2)[|p1| + k] == p2[k] && (s1 + s2)[|s1| + k] == s2[k];
  }

  /** Sessions that fit a run of paths split where the paths do. */
  lemma SplitFits(p1: seq<TestCaseStep>, p2: seq<TestCaseStep>, sessions: seq<Session>)
    requires Fits(p1 + p2, sessions)
    ensures Fits(p1, sessions[..|p1|]) && Fits(p2, sessions[|p1|..])
    ensures sessions == sessions[..|p1|] + sessions[|p1|..]
  {
    assert forall k :: 0 <= k < |p1| ==> (p1 + p2)[k] == p1[k];
    assert forall k :: 0 <= k < |p2| ==> (p1 + p2)[|p1| + k] == p2[k] && sessions[|p1|..][k] == sessions[|p1| + k];
  }

  /** The flattened run keeps `Main`'s pass counter: the paths of the
      first case are run with the first sessions, and the passes of the
      whole run are those of the first case plus those of the remaining
      cases. */
  lemma CaseByCase(cases: seq<TestCase>, sessions: seq<Session>, policy: Driver.Policy)
    requires |cases| > 0 && Fits(Paths(cases), sessions)
    ensures var n := |cases[0].steps|;
            && n <= |sessions|
            && Fits(cases[0].steps, sessions[..n]) && Fits(Paths(cases[1..]), sessions[n..])
            && CountPassed(Verdicts(Paths(cases), sessions, policy))
               == CountPassed(Verdicts(cases[0].steps, sessions[..n], policy))
                  + CountPassed(Verdicts(Paths(cases[1..]), sessions[n..], policy))
  {
    var p1, p2 := cases[0].steps, Paths(cases[1..]);
    SplitFits(p1, p2, sessions);
    var s1, s2 := sessions[..|p1|], sessions[|p1|..];
    VerdictsAppend(p1, s1, p2, s2, policy);
    CountPassedAppend(Verdicts(p1, s1, policy), Verdicts(p2, s2, policy));
  }

  /** ... and the whole run is free of crashes exactly when the first case
      and the remaining cases are. */
  lemma CaseByCaseCrash(cases: seq<TestCase>, sessions: seq<Session>, policy: Driver.Policy)
    requires |cases| > 0 && Fits(Paths(cases), sessions)
    ensures var n := |cases[0].steps|;
            && n <= |sessions|
            && Fits(cases[0].steps, sessions[..n]) && Fits(Paths(cases[1..]), sessions[n..])
            && (NoCrash(Verdicts(Paths(cases), sessions, policy))
                <==> NoCrash(Verdicts(cases[0].steps, sessions[..n], policy))
                     && NoCrash(Verdicts(Paths(cases[1..]), sessions[n..], policy)))
  {
    var p1, p2 := cases[0].steps, Paths(cases[1..]);
    SplitFits(p1, p2, sessions);
    var s1, s2 := sessions[..|p1|], sessions[|p1|..];
    VerdictsAppend(p1, s1, p2, s2, policy);
    NoCrashAppend(Verdicts(p1, s1, policy), Verdicts(p2, s2, policy));
  }

  /** A path that passed is one where no action mismatched or crashed. */
  lemma PassedPath(paths: seq<TestCaseStep>, sessions: seq<Session>, policy: Driver.Policy, k: nat)
    requires Fits(paths, sessions) && k < |paths|
    ensures Verdicts(paths, sessions, policy)[k] == Driver.Passed
            <==> forall t :: 0 <= t < |paths[k].actions| ==>
                   !Driver.Decisive(Driver.Outcomes(paths[k], sessions[k].transcript, policy)[t])
  {
    Driver.DecidePassed(Driver.Outcomes(paths[k], sessions[k].transcript, policy), paths[k], 0);
  }
}

=== FILE: placeholders.dfy ===
/** Resolution of the placeholders in an expected response. `${n}` stands for
    the input of step `n` of the same path, `${n-m}` for the name of entity
    `m` of that step. The runner resolves them in two passes: first every
    `${n}` found in the original text, then every `${n-m}` found in the
    result of the first pass, each by a `string.Replace` of the matched text.
    A step or entity that cannot be found aborts the run. */
module Placeholders {
  import opened Wrappers
  import opened Text
  import opened Model

  // ---------------------------------------------------------------------
  // References and their text
  // ---------------------------------------------------------------------

  /** A placeholder, its numbers kept as the digit strings of the text. */
  datatype Ref = InputRef(step: string) | EntityRef(step: string, entity: string)

  predicate WellFormed(r: Ref) {
    && |r.step| > 0 && AllDigits(r.step)
    && (r.EntityRef? ==> |r.entity| > 0 && AllDigits(r.entity))
  }

  function RefText(r: Ref): string {
    match r
    case InputRef(d) => "${" + d + "}"
    case EntityRef(d, e) => "${" + d + "-" + e + "}"
  }

  lemma DigitsLackDollar(d: string)
    requires AllDigits(d)
    ensures Lacks(d, '$')
  {
    assert forall i :: 0 <= i < |d| ==> IsDigit(d[i]);
  }

  /** Only the first character of a placeholder is a `$`. */
  lemma RefTextShape(r: Ref)
    requires WellFormed(r)
    ensures |RefText(r)| >= 4 && RefText(r)[0] == '$'
    ensures Lacks(RefText(r)[1..], '$')
  {
    match r
    case InputRef(d) => InputTextShape(d);
    case EntityRef(d, e) => EntityTextShape(d, e);
  }

  lemma InputTextShape(d: string)
    requires AllDigits(d)
    ensures RefText(InputRef(d))[1..] == "{" + d + "}" && Lacks("{" + d + "}", '$')
  {
    DigitsLackDollar(d);
    LacksAppend("{", d, '$');
    LacksAppend("{" + d, "}", '$');
  }

  lemma EntityTextShape(d: string, e: string)
    requires AllDigits(d) && AllDigits(e)
    ensures RefText(EntityRef(d, e))[1..] == "{" + d + "-" + e + "}"
    ensures Lacks("{" + d + "-" + e + "}", '$')
  {
    DigitsLackDollar(d);
    DigitsLackDollar(e);
    LacksAppend("{", d, '$');
    LacksAppend("{" + d, "-", '$');
    LacksAppend("{" + d + "-", e, '$');
    LacksAppend("{" + d + "-" + e, "}", '$');
  }

  // ---------------------------------------------------------------------
  // Matching: the regular expressions \$\{(\d)+\} and \$\{(\d)+\-(\d)+\}
  // ---------------------------------------------------------------------

  /** An anchored match at the start of `s`: of `${n}` when `entity` is
      false, of `${n-m}` when it is true. Gives the match length and the
      placeholder. */
  function MatchRef(s: string, entity: bool): (m: Option<(nat, Ref)>)
    ensures m.Some? ==> 0 < m.value.0 <= |s|
    ensures m.Some? ==> WellFormed(m.value.1) && m.value.1.EntityRef? == entity
    ensures m.Some? ==> s[..m.value.0] == RefText(m.value.1)
  {
    if |s| < 2 || s[0] != '$' || s[1] != '{' then None
    else if entity then MatchEntityAt(s)
    else MatchInputAt(s)
  }

  /** `\$\{(\d)+\}` at a `${`. */
  function MatchInputAt(s: string): (m: Option<(nat, Ref)>)
    requires |s| >= 2 && s[0] == '$' && s[1] == '{'
    ensures m.Some? ==> 0 < m.value.0 <= |s|
    ensures m.Some? ==> WellFormed(m.value.1) && m.value.1.InputRef?
    ensures m.Some? ==> s[..m.value.0] == RefText(m.value.1)
  {
    var t := s[2..];
    var n := DigitRun(t);
    if n == 0 || n == |t| || t[n] != '}' then None
    else
      InputSlice(s, n);
      Some((n + 3, InputRef(t[..n])))
  }

  /** `\$\{(\d)+\-(\d)+\}` at a `${`. */
  function MatchEntityAt(s: string): (m: Option<(nat, Ref)>)
    requires |s| >= 2 && s[0] == '$' && s[1] == '{'
    ensures m.Some? ==> 0 < m.value.0 <= |s|
    ensures m.Some? ==> WellFormed(m.value.1) && m.value.1.EntityRef?
    ensures m.Some? ==> s[..m.value.0] == RefText(m.value.1)
  {
    var t := s[2..];
    var n := DigitRun(t);
    if n == 0 || n == |t| || t[n] != '-' then None
    else
      var u := t[n + 1..];
      var k := DigitRun(u);
      if k == 0 || k == |u| || u[k] != '}' then None
      else
        EntitySlice(s, n, k);
        Some((n + k + 4, EntityRef(t[..n], u[..k])))
  }

  /** The text of an input placeholder read off its separators. */
  lemma InputSlice(s: string, n: nat)
    requires |s| >= 2 && s[0] == '$' && s[1] == '{'
    requires n < |s[2..]| && s[2..][n] == '}'
    ensures n + 3 <= |s|
    ensures s[..n + 3] == RefText(InputRef(s[2..][..n]))
  {
    assert s[n + 2] == '}';
    var d := s[2..][..n];
    assert d == s[2..n + 2];
    var x := "${" + d + "}";
    forall i | 0 <= i < n + 3
      ensures s[i] == x[i]
    {
      if 2 <= i < n + 2 {
        assert x[i] == d[i - 2];
      }
    }
  }

  /** The text of an entity placeholder read off its separators. */
  lemma EntitySlice(s: string, n: nat, k: nat)
    requires |s| >= 2 && s[0] == '$' && s[1] == '{'
    requires n < |s[2..]| && s[2..][n] == '-'
    requires k < |s[2..][n + 1..]| && s[2..][n + 1..][k] == '}'
    ensures n + k + 4 <= |s|
    ensures s[..n + k + 4] == RefText(EntityRef(s[2..][..n], s[2..][n + 1..][..k]))
  {
    assert s[n + 2] == '-' && s[n + k + 3] == '}';
    var d := s[2..][..n];
    var e := s[2..][n + 1..][..k];
    assert d == s[2..n + 2] && e == s[n + 3..n + k + 3];
    var x := "${" + d + "-" + e + "}";
    assert |x| == n + k + 4;
    forall i | 0 <= i < n + k + 4
      ensures s[i] == x[i]
    {
      if 2 <= i < n + 2 {
        assert x[i] == d[i - 2];
      } else if n + 3 <= i < n + k + 3 {
        assert x[i] == e[i - n - 3];
      }
    }
  }

  lemma MatchInputText(d: string, rest: string)
    requires |d| > 0 && AllDigits(d)
    ensures MatchRef(RefText(InputRef(d)) + rest, false) == Some((|d| + 3, InputRef(d)))
  {
    var s := RefText(InputRef(d)) + rest;
    assert s[2..] == d + ("}" + rest);
    DigitRunOfDigits(d, "}" + rest);
    assert s[2..][..|d|] == d;
  }

  lemma MatchEntityText(d: string, e: string, rest: string)
    requires |d| > 0 && AllDigits(d) && |e| > 0 && AllDigits(e)
    ensures MatchRef(RefText(EntityRef(d, e)) + rest, true) == Some((|d| + |e| + 4, EntityRef(d, e)))
  {
    EntityTextLayout(d, e, rest);
    MatchEntityShape(RefText(EntityRef(d, e)) + rest, d, e);
  }

  /** `s` starts with `${`, the digits `d`, `-`, the digits `e` and `}`,
      each digit string being a whole digit run. */
  predicate EntityLayout(s: string, d: string, e: string) {
    var n := |d|;
    && |s| >= 2 && s[0] == '$' && s[1] == '{'
    && 0 < n == DigitRun(s[2..]) < |s[2..]| && s[2..][n] == '-' && s[2..][..n] == d
    && 0 < |e| == DigitRun(s[2..][n + 1..]) < |s[2..][n + 1..]|
    && s[2..][n + 1..][|e|] == '}' && s[2..][n + 1..][..|e|] == e
  }

  /** Where the digit runs and separators of `${d-e}` sit. */
  lemma EntityTextLayout(d: string, e: string, rest: string)
    requires |d| > 0 && AllDigits(d) && |e| > 0 && AllDigits(e)
    ensures EntityLayout(RefText(EntityRef(d, e)) + rest, d, e)
  {
    var s := RefText(EntityRef(d, e)) + rest;
    var t := s[2..];
    assert t == d + ("-" + e + "}" + rest);
    DigitRunOfDigits(d, "-" + e + "}" + rest);
    assert t[..|d|] == d;
    var u := t[|d| + 1..];
    assert u == e + ("}" + rest);
    DigitRunOfDigits(e, "}" + rest);
    assert u[..|e|] == e;
  }

  /** The entity pattern matched at a `${`, in terms of the two digit runs. */
  lemma MatchEntityShape(s: string, d: string, e: string)
    requires EntityLayout(s, d, e)
    ensures MatchRef(s, true) == Some((|d| + |e| + 4, EntityRef(d, e)))
  {
  }

  /** A placeholder's own text matches its own pattern. */
  lemma MatchOwnText(r: Ref, rest: string)
    requires WellFormed(r)
    ensures MatchRef(RefText(r) + rest, r.EntityRef?) == Some((|RefText(r)|, r))
  {
    match r
    case InputRef(d) => MatchInputText(d, rest);
    case EntityRef(d, e) => MatchEntityText(d, e, rest);
  }

  /** ... and not the other pattern: after the step number comes `}` where
      `-` is wanted, or the other way round. */
  lemma MatchOtherText(r: Ref, rest: string)
    requires WellFormed(r)
    ensures MatchRef(RefText(r) + rest, !r.EntityRef?) == None
  {
    var s := RefText(r) + rest;
    var d := r.step;
    assert s[2..] == d + (s[2 + |d|..]);
    if r.EntityRef? {
      assert s[2 + |d|] == '-';
    } else {
      assert s[2 + |d|] == '}';
    }
    DigitRunOfDigits(d, s[2 + |d|..]);
  }

  /** `Regex.Matches`: left-to-right, non-overlapping matches of one of the
      two patterns. */
  function Scan(s: string, entity: bool): (toks: seq<Ref>)
    ensures forall i :: 0 <= i < |toks| ==> WellFormed(toks[i]) && toks[i].EntityRef? == entity
    decreases |s|
  {
    if |s| == 0 then []
    else match MatchRef(s, entity)
      case Some((n, r)) => [r] + Scan(s[n..], entity)
      case None => Scan(s[1..], entity)
  }

  /** The scanner passes over text with no `$` in it. */
  lemma {:induction false} ScanSkips(x: string, rest: string, entity: bool)
    requires Lacks(x, '$')
    ensures Scan(x + rest, entity) == Scan(rest, entity)
  {
    if |x| > 0 {
      assert (x + rest)[0] == x[0];
      assert (x + rest)[1..] == x[1..] + rest;
      ScanSkips(x[1..], rest, entity);
    } else {
      assert x + rest == rest;
    }
  }

  // ---------------------------------------------------------------------
  // Resolution
  // ---------------------------------------------------------------------

  datatype ResolveError = MissingStep(step: int) | MissingEntity(step: int, entity: int)

  /** `actions.Where(a => a.StepNumber == n).First()`, absent when no action
      has that step number. */
  function FindStep(actions: seq<StepAction>, n: int): (r: Option<nat>)
    ensures r.Some? ==> r.value < |actions| && actions[r.value].stepNumber == n
    ensures r.Some? ==> forall j :: 0 <= j < r.value ==> actions[j].stepNumber != n
    ensures r.None? ==> forall j :: 0 <= j < |actions| ==> actions[j].stepNumber != n
  {
    if |actions| == 0 then None
    else if actions[0].stepNumber == n then Some(0)
    else match FindStep(actions[1..], n)
      case None => None
      case Some(j) => Some(j + 1)
  }

  /** `entities.Where(e => e.Index == k).First()`. */
  function FindEntity(entities: seq<Entity>, k: int): (r: Option<nat>)
    ensures r.Some? ==> r.value < |entities| && entities[r.value].index == k
    ensures r.Some? ==> forall j :: 0 <= j < r.value ==> entities[j].index != k
    ensures r.None? ==> forall j :: 0 <= j < |entities| ==> entities[j].index != k
  {
    if |entities| == 0 then None
    else if entities[0].index == k then Some(0)
    else match FindEntity(entities[1..], k)
      case None => None
      case Some(j) => Some(j + 1)
  }

  /** What a placeholder stands for among the actions of a path: the input
      of the first action with its step number, or the name of the first
      entity with its index in that action. */
  function Value(r: Ref, actions: seq<StepAction>): (v: Result<string, ResolveError>)
    requires WellFormed(r)
  {
    var n := DigitsValue(r.step);
    match FindStep(actions, n)
    case None => Failure(MissingStep(n))
    case Some(i) =>
      if r.InputRef? then Success(actions[i].input)
      else
        var k := DigitsValue(r.entity);
        match FindEntity(actions[i].entities, k)
        case None => Failure(MissingEntity(n, k))
        case Some(j) => Success(actions[i].entities[j].name)
  }

  predicate AllWellFormed(toks: seq<Ref>) {
    forall i :: 0 <= i < |toks| ==> WellFormed(toks[i])
  }

  /** One pass: for every matched placeholder in turn, replace all its
      occurrences in the current text by its value; the first placeholder
      with no value aborts the pass. */
  function Pass(s: string, toks: seq<Ref>, actions: seq<StepAction>): Result<string, ResolveError>
    requires AllWellFormed(toks)
    decreases |toks|
  {
    if |toks| == 0 then Success(s)
    else
      match Value(toks[0], actions)
      case Failure(e) => Failure(e)
      case Success(v) =>
        assert AllWellFormed(toks[1..]) by {
          assert forall i :: 0 <= i < |toks| - 1 ==> toks[1..][i] == toks[i + 1];
        }
        Pass(ReplaceAll(s, RefText(toks[0]), v), toks[1..], actions)
  }

  /** A pass succeeds exactly when every placeholder has a value; a failed
      pass reports the error of the first placeholder without one. */
  lemma {:induction false} PassOutcome(s: string, toks: seq<Ref>, actions: seq<StepAction>)
    requires AllWellFormed(toks)
    ensures var res := Pass(s, toks, actions);
            && (res.Success? <==> forall i :: 0 <= i < |toks| ==> Value(toks[i], actions).Success?)
            && (res.Failure? ==>
                  exists k :: 0 <= k < |toks| && Value(toks[k], actions) == Failure(res.error)
                    && forall i :: 0 <= i < k ==> Value(toks[i], actions).Success?)
    decreases |toks|
  {
    if |toks| > 0 && Value(toks[0], actions).Success? {
      var more := toks[1..];
      var v := Value(toks[0], actions).value;
      assert forall i :: 0 <= i < |more| ==> more[i] == toks[i + 1];
      assert AllWellFormed(more);
      PassOutcome(ReplaceAll(s, RefText(toks[0]), v), more, actions);
      var res := Pass(s, toks, actions);
      assert res == Pass(ReplaceAll(s, RefText(toks[0]), v), more, actions);
      if res.Failure? {
        var k :| 0 <= k < |more| && Value(more[k], actions) == Failure(res.error)
                 && forall i :: 0 <= i < k ==> Value(more[i], actions).Success?;
        assert Value(toks[k + 1], actions) == Failure(res.error);
        assert forall i :: 0 <= i < k + 1 ==> Value(toks[i], actions).Success? by {
          forall i | 0 <= i < k + 1 ensures Value(toks[i], actions).Success? {
            if i > 0 { assert toks[i] == more[i - 1]; }
          }
        }
      } else {
        forall i | 0 <= i < |toks| ensures Value(toks[i], actions).Success? {
          if i > 0 { assert toks[i] == more[i - 1]; }
        }
      }
    } else if |toks| > 0 {
      assert Value(toks[0], actions) == Failure(Pass(s, toks, actions).error);
    }
  }

  /** Both passes over an expected response. */
  function Resolve(template: string, actions: seq<StepAction>): Result<string, ResolveError> {
    var once :- Pass(template, Scan(template, false), actions);
    Pass(once, Scan(once, true), actions)
  }

  /** A template without a `$` holds no placeholder, so it resolves to
      itself whatever the path's actions are. */
  lemma ResolveDollarFree(t: string, actions: seq<StepAction>)
    requires Lacks(t, '$')
    ensures Resolve(t, actions) == Success(t)
  {
    assert t + "" == t;
    ScanSkips(t, "", false);
    ScanSkips(t, "", true);
  }

  // ---------------------------------------------------------------------
  // Templates as pieces
  // ---------------------------------------------------------------------

  /** A template split into literal text and placeholders. */
  datatype Piece = Lit(text: string) | Ref(ref: Ref)

  function PieceText(p: Piece): string {
    match p
    case Lit(x) => x
    case Ref(r) => RefText(r)
  }

  function Render(ps: seq<Piece>): string {
    if |ps| == 0 then "" else PieceText(ps[0]) + Render(ps[1..])
  }

  /** Literal text has no `$` and every placeholder is well formed, so the
      pieces are exactly what the scanner finds. */
  predicate Clean(ps: seq<Piece>) {
    forall i :: 0 <= i < |ps| ==>
      && (ps[i].Lit? ==> Lacks(ps[i].text, '$'))
      && (ps[i].Ref? ==> WellFormed(ps[i].ref))
  }

  /** Inputs and entity names have no `$`, so substituting them does not
      create new placeholders. */
  predicate DollarFree(actions: seq<StepAction>) {
    forall i :: 0 <= i < |actions| ==>
      && Lacks(actions[i].input, '$')
      && forall j :: 0 <= j < |actions[i].entities| ==> Lacks(actions[i].entities[j].name, '$')
  }

  lemma ValueDollarFree(r: Ref, actions: seq<StepAction>)
    requires WellFormed(r) && DollarFree(actions) && Value(r, actions).Success?
    ensures Lacks(Value(r, actions).value, '$')
  {
  }

  /** The placeholders of one kind, in order. */
  function Refs(ps: seq<Piece>, entity: bool): (rs: seq<Ref>)
    requires Clean(ps)
    ensures AllWellFormed(rs)
    ensures forall j :: 0 <= j < |rs| ==> rs[j].EntityRef? == entity
  {
    if |ps| == 0 then []
    else
      var rest := Refs(ps[1..], entity);
      if ps[0].Ref? && ps[0].ref.EntityRef? == entity then [ps[0].ref] + rest else rest
  }

  lemma {:induction false} RefsMember(ps: seq<Piece>, entity: bool, i: nat)
    requires Clean(ps) && i < |ps| && ps[i].Ref? && ps[i].ref.EntityRef? == entity
    ensures ps[i].ref in Refs(ps, entity)
  {
    if i > 0 {
      assert ps[1..][i - 1] == ps[i];
      RefsMember(ps[1..], entity, i - 1);
    }
  }

  lemma {:induction false} RefsFrom(ps: seq<Piece>, entity: bool, r: Ref)
    requires Clean(ps) && r in Refs(ps, entity)
    ensures exists i :: 0 <= i < |ps| && ps[i] == Ref(r)
  {
    var rest := Refs(ps[1..], entity);
    if r in rest {
      RefsFrom(ps[1..], entity, r);
      var i :| 0 <= i < |ps[1..]| && ps[1..][i] == Ref(r);
      assert ps[i + 1] == Ref(r);
    } else {
      assert ps[0] == Ref(r);
    }
  }

  /** The scanner finds exactly the placeholders of the pieces. */
  lemma {:induction false} ScanRender(ps: seq<Piece>, entity: bool)
    requires Clean(ps)
    ensures Scan(Render(ps), entity) == Refs(ps, entity)
  {
    if |ps| > 0 {
      assert Clean(ps[1..]) by {
        assert forall i :: 1 <= i < |ps| ==> ps[1..][i - 1] == ps[i];
      }
      ScanRender(ps[1..], entity);
      var rest := Render(ps[1..]);
      match ps[0]
      case Lit(x) =>
        ScanSkips(x, rest, entity);
      case Ref(r) =>
        ScanRef(r, rest, entity);
    }
  }

  lemma ScanRef(r: Ref, rest: string, entity: bool)
    requires WellFormed(r)
    ensures Scan(RefText(r) + rest, entity)
            == (if r.EntityRef? == entity then [r] else []) + Scan(rest, entity)
  {
    var s := RefText(r) + rest;
    RefTextShape(r);
    if r.EntityRef? == entity {
      MatchOwnText(r, rest);
      assert s[|RefText(r)|..] == rest;
    } else {
      MatchOtherText(r, rest);
      assert s[1..] == RefText(r)[1..] + rest;
      ScanSkips(RefText(r)[1..], rest, entity);
    }
  }

  // ---------------------------------------------------------------------
  // Replacement on pieces
  // ---------------------------------------------------------------------

  /** Where the parts of a placeholder sit in its text. */
  lemma RefLayout(r: Ref)
    ensures |RefText(r)| > 2 + |r.step|
    ensures RefText(r)[2..2 + |r.step|] == r.step
    ensures RefText(r)[2 + |r.step|] == (if r.EntityRef? then '-' else '}')
    ensures r.EntityRef? ==> |RefText(r)| > 3 + |r.step| + |r.entity|
    ensures r.EntityRef? ==> RefText(r)[3 + |r.step|..3 + |r.step| + |r.entity|] == r.entity
    ensures r.EntityRef? ==> RefText(r)[3 + |r.step| + |r.entity|] == '}'
  {
  }

  /** A digit string sitting at offset `o` of `y` and followed by a
      non-digit is the digit run there. */
  lemma DigitsAt(d: string, y: string, o: nat)
    requires AllDigits(d) && o + |d| < |y| && y[o..o + |d|] == d && !IsDigit(y[o + |d|])
    ensures DigitRun(y[o..]) == |d|
  {
    assert y[o..] == d + y[o + |d|..];
    DigitRunOfDigits(d, y[o + |d|..]);
  }

  /** A digit string inside a placeholder's text, read inside a longer
      string that starts with that text. */
  lemma DigitsInPrefix(x: string, y: string, d: string, o: nat)
    requires x <= y && AllDigits(d) && o + |d| < |x| && x[o..o + |d|] == d && !IsDigit(x[o + |d|])
    ensures DigitRun(y[o..]) == |d| && y[o..o + |d|] == d
  {
    assert y[o..o + |d|] == x[o..o + |d|];
    assert y[o + |d|] == x[o + |d|];
    DigitsAt(d, y, o);
  }

  /** Two placeholders never overlap: one's text at the start of another's
      means they are the same placeholder. */
  lemma RefPrefixFree(q: Ref, r: Ref, rest: string)
    requires WellFormed(q) && WellFormed(r)
    requires RefText(q) <= RefText(r) + rest
    ensures q == r
  {
    var y := RefText(r) + rest;
    RefLayout(q);
    RefLayout(r);
    DigitsInPrefix(RefText(q), y, q.step, 2);
    DigitsInPrefix(RefText(r), y, r.step, 2);
    assert q.step == r.step;
    assert RefText(q)[2 + |q.step|] == y[2 + |q.step|];
    if q.EntityRef? {
      RefEntityTail(q, r, rest);
    }
  }

  lemma RefEntityTail(q: Ref, r: Ref, rest: string)
    requires WellFormed(q) && WellFormed(r) && q.EntityRef? && r.EntityRef?
    requires q.step == r.step
    requires RefText(q) <= RefText(r) + rest
    ensures q == r
  {
    RefLayout(q);
    RefLayout(r);
    SameDigits(RefText(q), RefText(r), RefText(r) + rest, q.entity, r.entity, 3 + |q.step|);
  }

  /** Two digit strings, each a whole digit run at the same offset of two
      prefixes of one string, are equal. */
  lemma SameDigits(x1: string, x2: string, y: string, d1: string, d2: string, o: nat)
    requires x1 <= y && AllDigits(d1) && o + |d1| < |x1| && x1[o..o + |d1|] == d1 && !IsDigit(x1[o + |d1|])
    requires x2 <= y && AllDigits(d2) && o + |d2| < |x2| && x2[o..o + |d2|] == d2 && !IsDigit(x2[o + |d2|])
    ensures d1 == d2
  {
    DigitsInPrefix(x1, y, d1, o);
    DigitsInPrefix(x2, y, d2, o);
  }

  /** The pieces with every occurrence of placeholder `q` made literal `v`. */
  function Subst1(ps: seq<Piece>, q: Ref, v: string): (r: seq<Piece>)
    ensures |r| == |ps|
    ensures forall i :: 0 <= i < |ps| ==> r[i] == (if ps[i] == Ref(q) then Lit(v) else ps[i])
  {
    seq(|ps|, i requires 0 <= i < |ps| => if ps[i] == Ref(q) then Lit(v) else ps[i])
  }

  /** `string.Replace` of a placeholder's text acts piece by piece. */
  lemma {:induction false} ReplaceRender(ps: seq<Piece>, q: Ref, v: string)
    requires Clean(ps) && WellFormed(q) && Lacks(v, '$')
    ensures ReplaceAll(Render(ps), RefText(q), v) == Render(Subst1(ps, q, v))
  {
    RefTextShape(q);
    var pat := RefText(q);
    if |ps| > 0 {
      assert Clean(ps[1..]) by {
        assert forall i :: 1 <= i < |ps| ==> ps[1..][i - 1] == ps[i];
      }
      ReplaceRender(ps[1..], q, v);
      var rest := Render(ps[1..]);
      var sub := Subst1(ps, q, v);
      assert sub[1..] == Subst1(ps[1..], q, v);
      assert Render(sub) == PieceText(sub[0]) + Render(Subst1(ps[1..], q, v));
      match ps[0]
      case Lit(x) =>
        ReplaceAllSkips(x, rest, pat, v);
      case Ref(r) =>
        ReplaceRef(r, rest, q, v);
    }
  }

  lemma ReplaceRef(r: Ref, rest: string, q: Ref, v: string)
    requires WellFormed(r) && WellFormed(q)
    ensures ReplaceAll(RefText(r) + rest, RefText(q), v)
            == (if r == q then v else RefText(r)) + ReplaceAll(rest, RefText(q), v)
  {
    var s := RefText(r) + rest;
    var pat := RefText(q);
    if r == q {
      RefTextShape(q);
      assert pat <= s;
      assert s[|pat|..] == rest;
    } else {
      ReplaceOtherRef(r, rest, q, v);
    }
  }

  lemma NotPrefixOfOther(r: Ref, rest: string, q: Ref)
    requires WellFormed(r) && WellFormed(q) && r != q
    ensures !(RefText(q) <= RefText(r) + rest)
  {
    if RefText(q) <= RefText(r) + rest {
      RefPrefixFree(q, r, rest);
    }
  }

  lemma ReplaceOtherRef(r: Ref, rest: string, q: Ref, v: string)
    requires WellFormed(r) && WellFormed(q) && r != q
    ensures ReplaceAll(RefText(r) + rest, RefText(q), v) == RefText(r) + ReplaceAll(rest, RefText(q), v)
  {
    var x := RefText(r);
    var pat := RefText(q);
    RefTextShape(r);
    RefTextShape(q);
    NotPrefixOfOther(r, rest, q);
    ReplaceAllKeepsHead(x, rest, pat, v);
  }

  // ---------------------------------------------------------------------
  // The passes on pieces
  // ---------------------------------------------------------------------

  /** The pieces with every placeholder in `done` that has a value replaced
      by that value. */
  function Subst(ps: seq<Piece>, done: set<Ref>, actions: seq<StepAction>): (r: seq<Piece>)
    requires Clean(ps)
    ensures |r| == |ps|
    ensures forall i :: 0 <= i < |ps| ==>
              r[i] == (if ps[i].Ref? && ps[i].ref in done && Value(ps[i].ref, actions).Success?
                       then Lit(Value(ps[i].ref, actions).value) else ps[i])
  {
    seq(|ps|, i requires 0 <= i < |ps| =>
      if ps[i].Ref? && ps[i].ref in done && Value(ps[i].ref, actions).Success?
      then Lit(Value(ps[i].ref, actions).value) else ps[i])
  }

  lemma SubstClean(ps: seq<Piece>, done: set<Ref>, actions: seq<StepAction>)
    requires Clean(ps) && DollarFree(actions)
    ensures Clean(Subst(ps, done, actions))
  {
    var r := Subst(ps, done, actions);
    forall i | 0 <= i < |ps| && ps[i].Ref? && ps[i].ref in done && Value(ps[i].ref, actions).Success?
      ensures Lacks(r[i].text, '$')
    {
      ValueDollarFree(ps[i].ref, actions);
    }
  }

  lemma SubstNone(ps: seq<Piece>, actions: seq<StepAction>)
    requires Clean(ps)
    ensures Subst(ps, {}, actions) == ps
  {
  }

  lemma SubstStep(ps: seq<Piece>, done: set<Ref>, q: Ref, actions: seq<StepAction>)
    requires Clean(ps) && WellFormed(q) && Value(q, actions).Success?
    ensures Clean(Subst(ps, done, actions)) ==>
              Subst1(Subst(ps, done, actions), q, Value(q, actions).value) == Subst(ps, done + {q}, actions)
  {
  }

  /** The elements of a sequence. */
  function Elems(toks: seq<Ref>): (e: set<Ref>)
    ensures forall r :: r in e <==> r in toks
  {
    set r | r in toks
  }

  /** A pass whose placeholders all have values substitutes each of them. */
  lemma {:induction false} PassRender(ps: seq<Piece>, done: set<Ref>, toks: seq<Ref>, actions: seq<StepAction>)
    requires Clean(ps) && DollarFree(actions) && AllWellFormed(toks)
    requires forall i :: 0 <= i < |toks| ==> Value(toks[i], actions).Success?
    ensures Pass(Render(Subst(ps, done, actions)), toks, actions)
            == Success(Render(Subst(ps, done + Elems(toks), actions)))
    decreases |toks|
  {
    if |toks| == 0 {
      assert done + Elems(toks) == done;
    } else {
      var q := toks[0];
      var more := toks[1..];
      assert AllWellFormed(more) && forall i :: 0 <= i < |more| ==> Value(more[i], actions).Success? by {
        assert forall i :: 0 <= i < |more| ==> more[i] == toks[i + 1];
      }
      calc {
        Pass(Render(Subst(ps, done, actions)), toks, actions);
        { PassRenderStep(ps, done, toks, actions); }
        Pass(Render(Subst(ps, done + {q}, actions)), more, actions);
        { PassRender(ps, done + {q}, more, actions); }
        Success(Render(Subst(ps, done + {q} + Elems(more), actions)));
        { assert done + {q} + Elems(more) == done + Elems(toks); }
        Success(Render(Subst(ps, done + Elems(toks), actions)));
      }
    }
  }

  /** The first placeholder of a pass, when it has a value, joins the
      substituted set. */
  lemma PassRenderStep(ps: seq<Piece>, done: set<Ref>, toks: seq<Ref>, actions: seq<StepAction>)
    requires Clean(ps) && DollarFree(actions) && AllWellFormed(toks)
    requires |toks| > 0 && Value(toks[0], actions).Success?
    ensures AllWellFormed(toks[1..])
    ensures Pass(Render(Subst(ps, done, actions)), toks, actions)
            == Pass(Render(Subst(ps, done + {toks[0]}, actions)), toks[1..], actions)
  {
    var q := toks[0];
    var v := Value(q, actions).value;
    var cur := Subst(ps, done, actions);
    PassStep(Render(cur), toks, actions);
    SubstClean(ps, done, actions);
    ValueDollarFree(q, actions);
    ReplaceRender(cur, q, v);
    SubstStep(ps, done, q, actions);
  }

  /** A pass whose first placeholder has a value replaces it and goes on
      with the rest. */
  lemma PassStep(s: string, toks: seq<Ref>, actions: seq<StepAction>)
    requires AllWellFormed(toks) && |toks| > 0 && Value(toks[0], actions).Success?
    ensures AllWellFormed(toks[1..])
    ensures Pass(s, toks, actions)
            == Pass(ReplaceAll(s, RefText(toks[0]), Value(toks[0], actions).value), toks[1..], actions)
  {
    assert forall i :: 0 <= i < |toks| - 1 ==> toks[1..][i] == toks[i + 1];
  }

  /** The pieces with every placeholder of one kind that has a value made
      literal. */
  function ExpandKind(ps: seq<Piece>, entity: bool, actions: seq<StepAction>): (r: seq<Piece>)
    requires Clean(ps)
    ensures |r| == |ps|
    ensures forall i :: 0 <= i < |ps| ==>
              r[i] == (if ps[i].Ref? && ps[i].ref.EntityRef? == entity && Value(ps[i].ref, actions).Success?
                       then Lit(Value(ps[i].ref, actions).value) else ps[i])
  {
    seq(|ps|, i requires 0 <= i < |ps| =>
      if ps[i].Ref? && ps[i].ref.EntityRef? == entity && Value(ps[i].ref, actions).Success?
      then Lit(Value(ps[i].ref, actions).value) else ps[i])
  }

  /** Substituting the placeholders one pass finds is expanding that kind. */
  lemma SubstAllOfKind(ps: seq<Piece>, entity: bool, actions: seq<StepAction>)
    requires Clean(ps)
    ensures Subst(ps, Elems(Refs(ps, entity)), actions) == ExpandKind(ps, entity, actions)
  {
    var rs := Refs(ps, entity);
    forall i | 0 <= i < |ps| && ps[i].Ref?
      ensures ps[i].ref in Elems(rs) <==> ps[i].ref.EntityRef? == entity
    {
      if ps[i].ref.EntityRef? == entity {
        RefsMember(ps, entity, i);
      }
    }
  }

  /** Every placeholder of one kind has a value exactly when every token of
      the pass has one. */
  lemma RefsResolvable(ps: seq<Piece>, entity: bool, actions: seq<StepAction>)
    requires Clean(ps)
    ensures (forall i :: 0 <= i < |Refs(ps, entity)| ==> Value(Refs(ps, entity)[i], actions).Success?)
            <==> (forall i :: 0 <= i < |ps| && ps[i].Ref? && ps[i].ref.EntityRef? == entity
                    ==> Value(ps[i].ref, actions).Success?)
  {
    var rs := Refs(ps, entity);
    if forall i :: 0 <= i < |rs| ==> Value(rs[i], actions).Success? {
      forall i | 0 <= i < |ps| && ps[i].Ref? && ps[i].ref.EntityRef? == entity
        ensures Value(ps[i].ref, actions).Success?
      {
        RefsMember(ps, entity, i);
      }
    }
    if forall i :: (0 <= i < |ps| && ps[i].Ref? && ps[i].ref.EntityRef? == entity)
                     ==> Value(ps[i].ref, actions).Success? {
      forall k | 0 <= k < |rs| ensures Value(rs[k], actions).Success? {
        RefsFrom(ps, entity, rs[k]);
      }
    }
  }

  /** The pieces with every placeholder that has a value made literal. */
  function Expand(ps: seq<Piece>, actions: seq<StepAction>): (r: seq<Piece>)
    requires Clean(ps)
    ensures |r| == |ps|
    ensures forall i :: 0 <= i < |ps| ==>
              r[i] == (if ps[i].Ref? && Value(ps[i].ref, actions).Success?
                       then Lit(Value(ps[i].ref, actions).value) else ps[i])
  {
    seq(|ps|, i requires 0 <= i < |ps| =>
      if ps[i].Ref? && Value(ps[i].ref, actions).Success?
      then Lit(Value(ps[i].ref, actions).value) else ps[i])
  }

  /** One pass over rendered pieces: it succeeds exactly when every
      placeholder of its kind has a value, and then yields the pieces with
      that kind expanded. */
  lemma PassOfKind(ps: seq<Piece>, entity: bool, actions: seq<StepAction>)
    requires Clean(ps) && DollarFree(actions)
    ensures var res := Pass(Render(ps), Scan(Render(ps), entity), actions);
            && (res.Success? <==> forall i :: 0 <= i < |ps| && ps[i].Ref? && ps[i].ref.EntityRef? == entity
                                     ==> Value(ps[i].ref, actions).Success?)
            && (res.Success? ==> res.value == Render(ExpandKind(ps, entity, actions)))
  {
    ScanRender(ps, entity);
    var rs := Refs(ps, entity);
    RefsResolvable(ps, entity, actions);
    PassOutcome(Render(ps), rs, actions);
    if forall i :: 0 <= i < |rs| ==> Value(rs[i], actions).Success? {
      SubstNone(ps, actions);
      PassRender(ps, {}, rs, actions);
      assert {} + Elems(rs) == Elems(rs);
      SubstAllOfKind(ps, entity, actions);
    }
  }

  /** Expanding inputs, then entities, is expanding everything. */
  lemma ExpandInTwo(ps: seq<Piece>, actions: seq<StepAction>)
    requires Clean(ps) && DollarFree(actions)
    ensures Clean(ExpandKind(ps, false, actions))
    ensures ExpandKind(ExpandKind(ps, false, actions), true, actions) == Expand(ps, actions)
    ensures forall i :: 0 <= i < |ps| ==>
              (ExpandKind(ps, false, actions)[i].Ref? && ExpandKind(ps, false, actions)[i].ref.EntityRef?
               <==> ps[i].Ref? && ps[i].ref.EntityRef?)
  {
    var once := ExpandKind(ps, false, actions);
    forall i | 0 <= i < |ps| && ps[i].Ref? && !ps[i].ref.EntityRef? && Value(ps[i].ref, actions).Success?
      ensures Lacks(once[i].text, '$')
    {
      ValueDollarFree(ps[i].ref, actions);
    }
  }

  /** Resolution of a template built from clean pieces, against actions
      whose inputs and entity names hold no `$`: it succeeds exactly when
      every placeholder has a value, and then yields the template with each
      placeholder replaced by its value. */
  lemma ResolveRender(ps: seq<Piece>, actions: seq<StepAction>)
    requires Clean(ps) && DollarFree(actions)
    ensures Resolve(Render(ps), actions).Success?
            <==> forall i :: 0 <= i < |ps| && ps[i].Ref? ==> Value(ps[i].ref, actions).Success?
    ensures Resolve(Render(ps), actions).Success? ==>
              Resolve(Render(ps), actions).value == Render(Expand(ps, actions))
  {
    PassOfKind(ps, false, actions);
    var first := Pass(Render(ps), Scan(Render(ps), false), actions);
    if first.Success? {
      ExpandInTwo(ps, actions);
      var once := ExpandKind(ps, false, actions);
      PassOfKind(once, true, actions);
    }
  }

  // ---------------------------------------------------------------------
  // Examples
  // ---------------------------------------------------------------------

  /** The success half of `ResolveRender`, as an equation. */
  lemma ResolveAll(ps: seq<Piece>, actions: seq<StepAction>)
    requires Clean(ps) && DollarFree(actions)
    requires forall i :: 0 <= i < |ps| && ps[i].Ref? ==> Value(ps[i].ref, actions).Success?
    ensures Resolve(Render(ps), actions) == Success(Render(Expand(ps, actions)))
  {
    ResolveRender(ps, actions);
  }

  /** `ResolveAll` for a template given as text and a result given as
      text. */
  lemma ResolveText(ps: seq<Piece>, actions: seq<StepAction>, t: string, out: string)
    requires Clean(ps) && DollarFree(actions) && Render(ps) == t
    requires forall i :: 0 <= i < |ps| && ps[i].Ref? ==> Value(ps[i].ref, actions).Success?
    requires Render(Expand(ps, actions)) == out
    ensures Resolve(t, actions) == Success(out)
  {
    ResolveAll(ps, actions);
  }

  lemma ResolveInputExample(t: string, a: seq<StepAction>)
    requires t == "see you ${1}" && a == [StepAction(1, true, "hi", t, [])]
    ensures Resolve(t, a) == Success("see you hi")
  {
    var ps := [Lit("see you "), Ref(InputRef("1"))];
    assert Render(ps) == t;
    assert Value(InputRef("1"), a) == Success("hi");
    var e := Expand(ps, a);
    assert Render(e) == "see you hi" by {
      assert e == [Lit("see you "), Lit("hi")];
      assert Render(e) == "see you " + Render([Lit("hi")]);
      assert Render([Lit("hi")]) == "hi";
    }
    ResolveText(ps, a, t, "see you hi");
  }

  lemma ResolveEntityExample(t: string, a: seq<StepAction>)
    requires t == "${1-2} it is" && a == [StepAction(1, true, "in paris", "", [Entity(2, "paris")])]
    ensures Resolve(t, a) == Success("paris it is")
  {
    var ps := [Ref(EntityRef("1", "2")), Lit(" it is")];
    EntityExamplePieces(ps, t);
    EntityExampleValue(a);
    EntityExampleExpand(ps, a);
    ResolveText(ps, a, t, "paris it is");
  }

  lemma EntityExamplePieces(ps: seq<Piece>, t: string)
    requires ps == [Ref(EntityRef("1", "2")), Lit(" it is")] && t == "${1-2} it is"
    ensures Clean(ps) && Render(ps) == t
  {
    assert WellFormed(EntityRef("1", "2"));
    assert Render(ps) == "${1-2}" + Render([Lit(" it is")]);
  }

  lemma EntityExampleExpand(ps: seq<Piece>, a: seq<StepAction>)
    requires ps == [Ref(EntityRef("1", "2")), Lit(" it is")]
    requires a == [StepAction(1, true, "in paris", "", [Entity(2, "paris")])]
    ensures DollarFree(a) && Render(Expand(ps, a)) == "paris it is"
  {
    EntityExampleValue(a);
    assert Expand(ps, a) == [Lit("paris"), Lit(" it is")];
    assert Render(Expand(ps, a)) == "paris" + Render([Lit(" it is")]);
  }

  lemma EntityExampleValue(a: seq<StepAction>)
    requires a == [StepAction(1, true, "in paris", "", [Entity(2, "paris")])]
    ensures Value(EntityRef("1", "2"), a) == Success("paris")
  {
    assert DigitsValue("1") == 1 && DigitsValue("2") == 2;
    assert FindStep(a, 1) == Some(0);
    assert FindEntity(a[0].entities, 2) == Some(0);
  }

  /** A reference to a step the path does not have aborts resolution. */
  lemma ResolveMissingExample(t: string, a: seq<StepAction>)
    requires t == "${2}" && a == [StepAction(1, true, "hi", "", [])]
    ensures Resolve(t, a) == Failure(MissingStep(2))
  {
    var ps := [Ref(InputRef("2"))];
    assert Render(ps) == t;
    ScanRender(ps, false);
    assert Value(InputRef("2"), a) == Failure(MissingStep(2));
  }
}

=== FILE: replies.dfy ===
/** How the runner turns the bot's activities into one reply text and how
    it compares that text with an expected response. Only the first
    attachment of an activity is looked at; a hero card is rendered as its
    trimmed text followed by its button titles, `|`-separated, in
    parentheses. The comparison ignores ASCII case and line breaks. */
module Replies {
  import opened Text

  datatype HeroCard = HeroCard(text: string, buttons: seq<string>)

  /** An attachment: its content type and, for a hero card, the card its
      content deserialises to. */
  datatype Attachment = Attachment(contentType: string, card: HeroCard)

  datatype Activity = Activity(text: string, attachments: seq<Attachment>)

  const HeroContentType: string := "application/vnd.microsoft.card.hero"

  /** `Environment.NewLine` on the platform the runner targets. */
  const NewLine: string := "\r\n"

  // ---------------------------------------------------------------------
  // Hero cards
  // ---------------------------------------------------------------------

  /** Every button title followed by `|`. */
  function Titles(buttons: seq<string>): string {
    if |buttons| == 0 then "" else buttons[0] + "|" + Titles(buttons[1..])
  }

  lemma {:induction false} TitlesJoin(buttons: seq<string>)
    requires |buttons| > 0
    ensures Titles(buttons) == Join(buttons, "|") + "|"
  {
    if |buttons| > 1 {
      TitlesJoin(buttons[1..]);
      assert Titles(buttons) == buttons[0] + "|" + (Join(buttons[1..], "|") + "|");
    } else {
      assert Titles(buttons[1..]) == "";
    }
  }

  /** The hero-card loop: trimmed text, `(`, every title with a `|`, then
      the last character dropped and `)` added. */
  function HeroCardText(card: HeroCard): (r: string)
    ensures |card.buttons| > 0 ==> r == Trim(card.text) + "(" + Join(card.buttons, "|") + ")"
    ensures |card.buttons| == 0 ==> r == Trim(card.text) + ")"
  {
    var acc := Trim(card.text) + "(" + Titles(card.buttons);
    if |card.buttons| > 0 then
      TitlesJoin(card.buttons);
      assert acc[..|acc| - 1] == Trim(card.text) + "(" + Join(card.buttons, "|");
      acc[..|acc| - 1] + ")"
    else
      assert acc[..|acc| - 1] == Trim(card.text);
      acc[..|acc| - 1] + ")"
  }

  lemma HeroCardExample(card: HeroCard)
    requires card == HeroCard("  Pick one ", ["Yes", "No"])
    ensures HeroCardText(card) == "Pick one" + "(" + "Yes|No" + ")"
  {
    TrimExample(card.text);
    JoinExample(card.buttons);
    CardWithButtons(card, "Pick one", "Yes|No");
  }

  lemma JoinExample(buttons: seq<string>)
    requires buttons == ["Yes", "No"]
    ensures Join(buttons, "|") == "Yes|No"
  {
    assert Join(buttons, "|") == "Yes" + "|" + Join(["No"], "|");
  }

  /** The rendering of a card with buttons, from its trimmed text and its
      joined titles. */
  lemma CardWithButtons(card: HeroCard, title: string, joined: string)
    requires |card.buttons| > 0 && Trim(card.text) == title && Join(card.buttons, "|") == joined
    ensures HeroCardText(card) == title + "(" + joined + ")"
  {
  }

  lemma TrimExample(t: string)
    requires t == "  Pick one "
    ensures Trim(t) == "Pick one"
  {
    assert t == "  " + "Pick one" + " ";
    TrimPadded("  ", "Pick one", " ");
  }

  /** A card without buttons loses its `(`, not a character of its text. */
  lemma HeroCardNoButtonsExample(card: HeroCard)
    requires card == HeroCard("Done", [])
    ensures HeroCardText(card) == "Done)"
  {
    TrimPadded("", "Done", "");
    assert "" + "Done" + "" == card.text;
  }

  // ---------------------------------------------------------------------
  // Reply text
  // ---------------------------------------------------------------------

  /** What one activity adds to the reply: its text when it has no
      attachment, the rendered card when its first attachment is a hero
      card, nothing otherwise. */
  function Fragments(a: Activity): (fs: seq<string>)
    ensures |fs| <= 1
    ensures |a.attachments| == 0 ==> fs == [a.text]
    ensures |a.attachments| > 0 ==>
              fs == (if a.attachments[0].contentType == HeroContentType
                     then [HeroCardText(a.attachments[0].card)] else [])
  {
    if |a.attachments| > 0 then
      if a.attachments[0].contentType == HeroContentType then [HeroCardText(a.attachments[0].card)]
      else []
    else [a.text]
  }

  /** The fragments of a whole batch of activities, in order. */
  function BatchFragments(batch: seq<Activity>): (fs: seq<string>)
    ensures |fs| <= |batch|
  {
    if |batch| == 0 then [] else Fragments(batch[0]) + BatchFragments(batch[1..])
  }

  function ReplyText(batch: seq<Activity>): string {
    Join(BatchFragments(batch), NewLine)
  }

  /** The fragments of two batches in a row are those of the first batch
      followed by those of the second. */
  lemma {:induction false} BatchFragmentsAppend(b1: seq<Activity>, b2: seq<Activity>)
    ensures BatchFragments(b1 + b2) == BatchFragments(b1) + BatchFragments(b2)
  {
    if |b1| > 0 {
      assert (b1 + b2)[0] == b1[0];
      assert (b1 + b2)[1..] == b1[1..] + b2;
      BatchFragmentsAppend(b1[1..], b2);
    } else {
      assert b1 + b2 == b2;
    }
  }

  /** A batch of plain messages contributes every message's text, in the
      order the activities arrived. */
  lemma {:induction false} PlainBatch(batch: seq<Activity>)
    requires forall i :: 0 <= i < |batch| ==> |batch[i].attachments| == 0
    ensures |BatchFragments(batch)| == |batch|
    ensures forall i :: 0 <= i < |batch| ==> BatchFragments(batch)[i] == batch[i].text
  {
    if |batch| > 0 {
      PlainBatch(batch[1..]);
      var rest := BatchFragments(batch[1..]);
      assert BatchFragments(batch) == [batch[0].text] + rest;
      forall i | 0 <= i < |batch| ensures BatchFragments(batch)[i] == batch[i].text {
        if i > 0 {
          assert batch[1..][i - 1] == batch[i];
        }
      }
    }
  }

  // ---------------------------------------------------------------------
  // Comparison
  // ---------------------------------------------------------------------

  /** `s` with every `c` removed. */
  function Strip(s: string, c: char): (r: string)
    ensures |r| <= |s| && Lacks(r, c)
  {
    if |s| == 0 then ""
    else (if s[0] == c then "" else [s[0]]) + Strip(s[1..], c)
  }

  /** `Replace(c, string.Empty)` removes every `c`. */
  lemma {:induction false} ReplaceCharStrip(s: string, c: char)
    ensures ReplaceAll(s, [c], "") == Strip(s, c)
  {
    if |s| > 0 {
      ReplaceCharStrip(s[1..], c);
      assert [c] <= s <==> s[0] == c;
      if s[0] == c {
        assert s[|[c]|..] == s[1..];
      }
    }
  }

  lemma {:induction false} StripAppend(a: string, b: string, c: char)
    ensures Strip(a + b, c) == Strip(a, c) + Strip(b, c)
  {
    if |a| > 0 {
      assert (a + b)[1..] == a[1..] + b;
      StripAppend(a[1..], b, c);
    } else {
      assert a + b == b;
    }
  }

  lemma {:induction false} StripAbsent(s: string, c: char)
    requires Lacks(s, c)
    ensures Strip(s, c) == s
  {
    if |s| > 0 {
      StripAbsent(s[1..], c);
    }
  }

  /** Both sides of the comparison: lower-cased, then every CR and every LF
      removed. */
  function Normalize(s: string): (r: string)
    ensures r == Strip(Strip(ToLower(s), '\r'), '\n')
    ensures Lacks(r, '\r') && Lacks(r, '\n')
  {
    var t := ReplaceAll(ReplaceAll(ToLower(s), "\r", ""), "\n", "");
    ReplaceCharStrip(ToLower(s), '\r');
    ReplaceCharStrip(Strip(ToLower(s), '\r'), '\n');
    assert t == Strip(Strip(ToLower(s), '\r'), '\n');
    StripKeepsLacking(Strip(ToLower(s), '\r'), '\n', '\r');
    t
  }

  lemma {:induction false} StripKeepsLacking(s: string, c: char, d: char)
    requires Lacks(s, d)
    ensures Lacks(Strip(s, c), d)
  {
    if |s| > 0 {
      StripKeepsLacking(s[1..], c, d);
      assert Strip(s, c) == (if s[0] == c then "" else [s[0]]) + Strip(s[1..], c);
    }
  }

  /** Normalising works piece by piece. */
  lemma NormalizeAppend(a: string, b: string)
    ensures Normalize(a + b) == Normalize(a) + Normalize(b)
  {
    assert ToLower(a + b) == ToLower(a) + ToLower(b);
    StripAppend(ToLower(a), ToLower(b), '\r');
    StripAppend(Strip(ToLower(a), '\r'), Strip(ToLower(b), '\r'), '\n');
  }

  lemma NormalizeBreak(sep: string)
    requires sep == "\r\n" || sep == "\n"
    ensures Normalize(sep) == ""
  {
    assert ToLower(sep) == sep;
    assert Strip(sep, '\r') == "\n" by {
      if sep == "\n" {
        assert sep[1..] == "";
      } else {
        assert sep[1..] == "\n" && sep[1..][1..] == "";
      }
    }
    assert "\n"[1..] == "";
  }

  /** Fragments joined by a line break compare as if they were simply
      concatenated, so the platform's `NewLine` does not matter. */
  lemma {:induction false} NormalizeJoin(parts: seq<string>, sep: string)
    requires sep == "\r\n" || sep == "\n"
    ensures Normalize(Join(parts, sep)) == Normalize(Concat(parts))
  {
    if |parts| == 1 {
      assert Concat(parts) == parts[0] + Concat(parts[1..]);
      assert Concat(parts[1..]) == "";
      assert parts[0] + "" == parts[0];
    } else if |parts| > 1 {
      NormalizeJoin(parts[1..], sep);
      NormalizeAppend(parts[0] + sep, Join(parts[1..], sep));
      NormalizeAppend(parts[0], sep);
      NormalizeBreak(sep);
      NormalizeAppend(parts[0], Concat(parts[1..]));
    }
  }

  /** A reply is compared as its fragments run together: the line breaks
      the runner puts between them never matter. */
  lemma ReplyComparesConcatenated(batch: seq<Activity>, expected: string)
    ensures Matches(ReplyText(batch), expected) <==> Normalize(Concat(BatchFragments(batch))) == Normalize(expected)
  {
    NormalizeJoin(BatchFragments(batch), NewLine);
  }

  lemma LowerTwice(s: string)
    ensures ToLower(ToLower(s)) == ToLower(s)
  {
  }

  /** Case never matters to the comparison. */
  lemma NormalizeIgnoresCase(s: string)
    ensures Normalize(ToLower(s)) == Normalize(s)
  {
    LowerTwice(s);
  }

  /** Text without capitals or line breaks is its own normal form. */
  lemma NormalizePlain(s: string)
    requires forall i :: 0 <= i < |s| ==> !('A' <= s[i] <= 'Z') && s[i] != '\r' && s[i] != '\n'
    ensures Normalize(s) == s
  {
    assert ToLower(s) == s;
    StripAbsent(s, '\r');
    StripAbsent(s, '\n');
  }

  /** The reply matches the expected text. */
  predicate Matches(reply: string, expected: string) {
    Normalize(reply) == Normalize(expected)
  }

  /** Breaks and case differences do not make a mismatch. */
  lemma MatchesExample(reply: string, expected: string)
    requires reply == "Hi\r\nThere" && expected == "hi\nthere"
    ensures Matches(reply, expected)
  {
    LowerPair("Hi", "hi");
    LowerPair("There", "there");
    assert reply == "Hi" + "\r\n" + "There";
    assert expected == "hi" + "\n" + "there";
    MatchesAcrossBreaks("Hi", "\r\n", "There", "hi", "\n", "there");
  }

  lemma LowerPair(x: string, y: string)
    requires (x == "Hi" && y == "hi") || (x == "There" && y == "there")
    ensures ToLower(x) == ToLower(y)
  {
  }

  /** Two-line texts whose lines agree up to case match, whichever break
      each uses. */
  lemma MatchesAcrossBreaks(a1: string, sep1: string, b1: string, a2: string, sep2: string, b2: string)
    requires sep1 == "\r\n" || sep1 == "\n"
    requires sep2 == "\r\n" || sep2 == "\n"
    requires ToLower(a1) == ToLower(a2) && ToLower(b1) == ToLower(b2)
    ensures Matches(a1 + sep1 + b1, a2 + sep2 + b2)
  {
    TwoLines(a1, sep1, b1);
    TwoLines(a2, sep2, b2);
    NormalizeIgnoresCase(a1);
    NormalizeIgnoresCase(a2);
    NormalizeIgnoresCase(b1);
    NormalizeIgnoresCase(b2);
  }

  /** Two lines joined by a break normalise to the two lines run together. */
  lemma TwoLines(a: string, sep: string, b: string)
    requires sep == "\r\n" || sep == "\n"
    ensures Normalize(a + sep + b) == Normalize(a) + Normalize(b)
  {
    NormalizeAppend(a + sep, b);
    NormalizeAppend(a, sep);
    NormalizeBreak(sep);
    assert Normalize(a) + "" == Normalize(a);
  }
}

=== FILE: suite.dfy ===
/** The `TestSuite` constructor: the "Index" sheet lists one test case per
    row (sheet name in column A, description in column B, row 1 a header).
    A case is kept only when both cells are non-empty and a sheet with that
    name exists; its paths are then built from that sheet's rows. */
module Suite {
  import Wrappers
  import opened Model
  import Columns
  import Builder

  /** A cell of the index sheet: its reference ("A2") and its value. */
  datatype Cell = Cell(reference: string, value: string)

  datatype IndexRow = IndexRow(rowIndex: nat, cells: seq<Cell>)

  /** The workbook as the suite sees it: the index sheet's rows and, for
      every sheet name, that sheet's script rows. */
  datatype Workbook = Workbook(index: seq<IndexRow>, sheets: map<string, seq<Builder.ScriptRow>>)

  datatype CaseHeader = CaseHeader(sheetName: string, description: string)

  function Column(c: Cell): int {
    Columns.ColumnIndex(c.reference)
  }

  /** `v` is the value of the last cell in column `col`, or "" when no cell
      is in that column. */
  ghost predicate LastIn(cells: seq<Cell>, col: int, v: string) {
    || ((forall i :: 0 <= i < |cells| ==> Column(cells[i]) != col) && v == "")
    || (exists j :: 0 <= j < |cells| && Column(cells[j]) == col && v == cells[j].value
          && forall t :: j < t < |cells| ==> Column(cells[t]) != col)
  }

  lemma LastInHit(cells: seq<Cell>, col: int)
    requires |cells| > 0 && Column(cells[|cells| - 1]) == col
    ensures LastIn(cells, col, cells[|cells| - 1].value)
  {
    var j := |cells| - 1;
    assert Column(cells[j]) == col && cells[|cells| - 1].value == cells[j].value;
  }

  lemma LastInMissNone(cells: seq<Cell>, col: int)
    requires |cells| > 0 && Column(cells[|cells| - 1]) != col
    requires forall i :: 0 <= i < |cells| - 1 ==> Column(cells[i]) != col
    ensures LastIn(cells, col, "")
  {
  }

  lemma LastInMissSome(cells: seq<Cell>, col: int, j: nat)
    requires j < |cells| - 1 && Column(cells[|cells| - 1]) != col
    requires Column(cells[j]) == col
    requires forall t :: j < t < |cells| - 1 ==> Column(cells[t]) != col
    ensures LastIn(cells, col, cells[j].value)
  {
  }

  lemma LastInExtend(cells: seq<Cell>, col: int, v: string)
    requires |cells| > 0 && LastIn(cells[..|cells| - 1], col, v)
    ensures LastIn(cells, col, if Column(cells[|cells| - 1]) == col then cells[|cells| - 1].value else v)
  {
    var init := cells[..|cells| - 1];
    if Column(cells[|cells| - 1]) == col {
      LastInHit(cells, col);
    } else if forall i :: 0 <= i < |init| ==> Column(init[i]) != col {
      assert forall i :: 0 <= i < |cells| - 1 ==> cells[i] == init[i];
      LastInMissNone(cells, col);
    } else {
      var j :| 0 <= j < |init| && Column(init[j]) == col && v == init[j].value
               && forall t :: j < t < |init| ==> Column(init[t]) != col;
      assert forall i :: 0 <= i < |cells| - 1 ==> cells[i] == init[i];
      LastInMissSome(cells, col, j);
    }
  }

  /** The cell loop of one index row: a cell in column A sets the sheet
      name, one in column B the description, any other is ignored; a later
      cell overrides an earlier one. Cells missing from the row leave "". */
  function ReadHeader(cells: seq<Cell>): (h: CaseHeader)
    ensures LastIn(cells, 0, h.sheetName)
    ensures LastIn(cells, 1, h.description)
  {
    if |cells| == 0 then CaseHeader("", "")
    else
      var before := ReadHeader(cells[..|cells| - 1]);
      var last := cells[|cells| - 1];
      LastInExtend(cells, 0, before.sheetName);
      LastInExtend(cells, 1, before.description);
      match Column(last)
      case 0 => before.(sheetName := last.value)
      case 1 => before.(description := last.value)
      case _ => before
  }

  predicate Kept(h: CaseHeader, sheets: map<string, seq<Builder.ScriptRow>>) {
    |h.sheetName| > 0 && |h.description| > 0 && h.sheetName in sheets
  }

  /** The case an index row declares, when the row is not the header row
      and its case is kept. */
  function CaseOf(row: IndexRow, sheets: map<string, seq<Builder.ScriptRow>>): Wrappers.Option<TestCase> {
    var h := ReadHeader(row.cells);
    if row.rowIndex != 1 && Kept(h, sheets) then
      Wrappers.Some(TestCase(h.sheetName, h.description, Builder.GetTestCaseSteps(sheets[h.sheetName])))
    else Wrappers.None
  }

  /** The index-row loop: header row skipped, invalid cases dropped, kept
      cases in index order. */
  function LoadCases(rows: seq<IndexRow>, sheets: map<string, seq<Builder.ScriptRow>>): (cases: seq<TestCase>)
    ensures |cases| <= |rows|
    ensures forall k :: 0 <= k < |cases| ==>
              Kept(CaseHeader(cases[k].sheetName, cases[k].description), sheets)
              && cases[k].steps == Builder.GetTestCaseSteps(sheets[cases[k].sheetName])
  {
    if |rows| == 0 then []
    else
      var rest := LoadCases(rows[1..], sheets);
      match CaseOf(rows[0], sheets)
      case Some(c) => [c] + rest
      case None => rest
  }

  /** The cases come out in index order: the cases of two runs of rows
      are those of the first run followed by those of the second. */
  lemma {:induction false} LoadCasesInOrder(r1: seq<IndexRow>, r2: seq<IndexRow>, sheets: map<string, seq<Builder.ScriptRow>>)
    ensures LoadCases(r1 + r2, sheets) == LoadCases(r1, sheets) + LoadCases(r2, sheets)
  {
    if |r1| > 0 {
      var rest := LoadCases(r1[1..] + r2, sheets);
      assert (r1 + r2)[1..] == r1[1..] + r2;
      LoadCasesInOrder(r1[1..], r2, sheets);
      match CaseOf(r1[0], sheets)
      case Some(c) =>
        assert LoadCases(r1 + r2, sheets) == [c] + rest;
      case None =>
        assert LoadCases(r1 + r2, sheets) == rest;
    } else {
      assert r1 + r2 == r2;
    }
  }

  /** One index row yields its own case when it is kept, and nothing
      otherwise. */
  lemma LoadCasesOne(row: IndexRow, sheets: map<string, seq<Builder.ScriptRow>>)
    ensures LoadCases([row], sheets) == (if CaseOf(row, sheets).Some? then [CaseOf(row, sheets).value] else [])
  {
    assert [row][1..] == [];
  }

  /** Every kept row of the index yields a case, and every case comes from
      a kept row. */
  lemma {:induction false} LoadCasesComplete(rows: seq<IndexRow>, sheets: map<string, seq<Builder.ScriptRow>>, i: nat)
    requires i < |rows| && rows[i].rowIndex != 1 && Kept(ReadHeader(rows[i].cells), sheets)
    ensures CaseOf(rows[i], sheets).Some? && CaseOf(rows[i], sheets).value in LoadCases(rows, sheets)
  {
    var rest := LoadCases(rows[1..], sheets);
    if i > 0 {
      assert rows[1..][i - 1] == rows[i];
      LoadCasesComplete(rows[1..], sheets, i - 1);
      var c := CaseOf(rows[i], sheets).value;
      assert c in rest;
      match CaseOf(rows[0], sheets)
      case Some(c0) =>
        assert LoadCases(rows, sheets) == [c0] + rest;
      case None =>
        assert LoadCases(rows, sheets) == rest;
    } else {
      var c := CaseOf(rows[0], sheets).value;
      assert LoadCases(rows, sheets) == [c] + rest;
    }
  }

  lemma {:induction false} LoadCasesSound(rows: seq<IndexRow>, sheets: map<string, seq<Builder.ScriptRow>>, c: TestCase)
    requires c in LoadCases(rows, sheets)
    ensures exists i :: 0 <= i < |rows| && CaseOf(rows[i], sheets) == Wrappers.Some(c)
  {
    var rest := LoadCases(rows[1..], sheets);
    if c in rest {
      LoadCasesSound(rows[1..], sheets, c);
      var i :| 0 <= i < |rows[1..]| && CaseOf(rows[1..][i], sheets) == Wrappers.Some(c);
      assert rows[i + 1] == rows[1..][i];
    } else {
      assert CaseOf(rows[0], sheets) == Wrappers.Some(c);
    }
  }

  /** The test cases of a workbook. */
  function TestCases(wb: Workbook): seq<TestCase> {
    LoadCases(wb.index, wb.sheets)
  }
}

=== FILE: text.dfy ===
/** String primitives of the .NET base library that the test runner relies
    on: decimal digits and `Convert.ToInt32`/`ToString` on non-negative
    numbers, ASCII case mapping (`ToLower`, `ToUpper`), `Trim`,
    `string.Join` and `string.Replace`. Strings are `seq<char>`. */
module Text {

  // ---------------------------------------------------------------------
  // Decimal digits
  // ---------------------------------------------------------------------

  predicate IsDigit(c: char) {
    '0' <= c <= '9'
  }

  predicate AllDigits(s: string) {
    forall i :: 0 <= i < |s| ==> IsDigit(s[i])
  }

  /** True when `c` occurs nowhere in `s`. */
  predicate Lacks(s: string, c: char) {
    forall i :: 0 <= i < |s| ==> s[i] != c
  }

  lemma LacksAppend(a: string, b: string, c: char)
    requires Lacks(a, c) && Lacks(b, c)
    ensures Lacks(a + b, c)
  {
    assert forall i :: |a| <= i < |a + b| ==> (a + b)[i] == b[i - |a|];
  }

  /** Length of the longest prefix of `s` made of decimal digits: what a
      greedy `(\d)+` consumes. */
  function DigitRun(s: string): (n: nat)
    ensures n <= |s|
    ensures AllDigits(s[..n])
    ensures n < |s| ==> !IsDigit(s[n])
  {
    if |s| > 0 && IsDigit(s[0]) then
      var k := DigitRun(s[1..]);
      assert s[..1 + k] == [s[0]] + s[1..][..k];
      1 + k
    else 0
  }

  lemma {:induction false} DigitRunOfDigits(d: string, rest: string)
    requires AllDigits(d)
    requires |rest| > 0 && !IsDigit(rest[0])
    ensures DigitRun(d + rest) == |d|
  {
    if |d| > 0 {
      assert (d + rest)[1..] == d[1..] + rest;
      DigitRunOfDigits(d[1..], rest);
    } else {
      assert d + rest == rest;
    }
  }

  /** Value of a string of decimal digits, most significant digit first. */
  function DigitsValue(d: string): nat
    requires AllDigits(d)
  {
    if |d| == 0 then 0
    else DigitsValue(d[..|d| - 1]) * 10 + (d[|d| - 1] as int - '0' as int)
  }

  /** Decimal rendering of a natural number, without leading zeros. */
  function NatToDigits(n: nat): (d: string)
    ensures |d| > 0 && AllDigits(d)
  {
    var last := [('0' as int + n % 10) as char];
    if n < 10 then last else NatToDigits(n / 10) + last
  }

  lemma {:induction false} DigitsRoundTrip(n: nat)
    ensures DigitsValue(NatToDigits(n)) == n
  {
    var d := NatToDigits(n);
    if n >= 10 {
      DigitsRoundTrip(n / 10);
      assert d[..|d| - 1] == NatToDigits(n / 10);
    }
  }

  // ---------------------------------------------------------------------
  // Case mapping (ASCII letters only)
  // ---------------------------------------------------------------------

  function LowerChar(c: char): char {
    if 'A' <= c <= 'Z' then (c as int + 32) as char else c
  }

  function UpperChar(c: char): char {
    if 'a' <= c <= 'z' then (c as int - 32) as char else c
  }

  function ToLower(s: string): (r: string)
    ensures |r| == |s|
    ensures forall i :: 0 <= i < |s| ==> r[i] == LowerChar(s[i])
  {
    seq(|s|, i requires 0 <= i < |s| => LowerChar(s[i]))
  }

  function ToUpper(s: string): (r: string)
    ensures |r| == |s|
    ensures forall i :: 0 <= i < |s| ==> r[i] == UpperChar(s[i])
  {
    seq(|s|, i requires 0 <= i < |s| => UpperChar(s[i]))
  }

  // ---------------------------------------------------------------------
  // Trim
  // ---------------------------------------------------------------------

  /** The characters `Char.IsWhiteSpace` accepts. */
  predicate IsWhiteSpace(c: char) {
    var n := c as int;
    || (0x09 <= n <= 0x0D) || n == 0x20 || n == 0x85 || n == 0xA0
    || n == 0x1680 || (0x2000 <= n <= 0x200A) || n == 0x2028 || n == 0x2029
    || n == 0x202F || n == 0x205F || n == 0x3000
  }

  predicate AllWhiteSpace(s: string) {
    forall i :: 0 <= i < |s| ==> IsWhiteSpace(s[i])
  }

  /** Number of white-space characters at the start of `s`. */
  function LeadingSpace(s: string): (k: nat)
    ensures k <= |s| && AllWhiteSpace(s[..k])
    ensures k < |s| ==> !IsWhiteSpace(s[k])
  {
    if |s| > 0 && IsWhiteSpace(s[0]) then
      var k := LeadingSpace(s[1..]);
      assert s[..k + 1] == [s[0]] + s[1..][..k];
      k + 1
    else 0
  }

  /** Position where the white space at the end of `s` begins. */
  function TrailingSpaceStart(s: string): (k: nat)
    ensures k <= |s| && AllWhiteSpace(s[k..])
    ensures k > 0 ==> !IsWhiteSpace(s[k - 1])
  {
    if |s| > 0 && IsWhiteSpace(s[|s| - 1]) then
      var k := TrailingSpaceStart(s[..|s| - 1]);
      assert s[k..] == s[..|s| - 1][k..] + [s[|s| - 1]];
      k
    else |s|
  }

  /** `string.Trim()`: the longest infix of `s` that neither starts nor ends
      with white space, everything cut off being white space. */
  function Trim(s: string): (r: string)
    ensures exists i, j :: 0 <= i <= j <= |s| && r == s[i..j]
              && AllWhiteSpace(s[..i]) && AllWhiteSpace(s[j..])
    ensures |r| > 0 ==> !IsWhiteSpace(r[0]) && !IsWhiteSpace(r[|r| - 1])
  {
    var i := LeadingSpace(s);
    var t := s[i..];
    var k := TrailingSpaceStart(t);
    assert s[i + k..] == t[k..];
    assert 0 <= i <= i + k <= |s| && s[i..i + k] == t[..k];
    t[..k]
  }

  lemma {:induction false} LeadingSpaceOf(pre: string, rest: string)
    requires AllWhiteSpace(pre) && |rest| > 0 && !IsWhiteSpace(rest[0])
    ensures LeadingSpace(pre + rest) == |pre|
  {
    if |pre| > 0 {
      assert (pre + rest)[1..] == pre[1..] + rest;
      LeadingSpaceOf(pre[1..], rest);
    } else {
      assert pre + rest == rest;
    }
  }

  lemma {:induction false} TrailingSpaceOf(rest: string, post: string)
    requires AllWhiteSpace(post) && |rest| > 0 && !IsWhiteSpace(rest[|rest| - 1])
    ensures TrailingSpaceStart(rest + post) == |rest|
  {
    if |post| > 0 {
      var s := rest + post;
      assert s[..|s| - 1] == rest + post[..|post| - 1];
      TrailingSpaceOf(rest, post[..|post| - 1]);
    } else {
      assert rest + post == rest;
    }
  }

  /** Trimming a text padded with white space gives back the text. */
  lemma TrimPadded(pre: string, mid: string, post: string)
    requires AllWhiteSpace(pre) && AllWhiteSpace(post)
    requires |mid| > 0 && !IsWhiteSpace(mid[0]) && !IsWhiteSpace(mid[|mid| - 1])
    ensures Trim(pre + mid + post) == mid
  {
    var s := pre + mid + post;
    assert s == pre + (mid + post);
    LeadingSpaceOf(pre, mid + post);
    assert s[|pre|..] == mid + post;
    TrailingSpaceOf(mid, post);
  }

  // ---------------------------------------------------------------------
  // Join and Replace
  // ---------------------------------------------------------------------

  /** Concatenation of all parts, with no separator. */
  function Concat(parts: seq<string>): string {
    if |parts| == 0 then "" else parts[0] + Concat(parts[1..])
  }

  /** `string.Join(sep, parts)`. */
  function Join(parts: seq<string>, sep: string): string {
    if |parts| == 0 then ""
    else if |parts| == 1 then parts[0]
    else parts[0] + sep + Join(parts[1..], sep)
  }

  /** `s.Replace(pat, rep)`: every non-overlapping occurrence of `pat`,
      found left to right in `s`, is replaced by `rep`. */
  function ReplaceAll(s: string, pat: string, rep: string): string
    requires |pat| > 0
    decreases |s|
  {
    if |s| == 0 then ""
    else if pat <= s then rep + ReplaceAll(s[|pat|..], pat, rep)
    else [s[0]] + ReplaceAll(s[1..], pat, rep)
  }

  /** Where no occurrence starts, the first character is kept. */
  lemma ReplaceAllMiss(s: string, pat: string, rep: string)
    requires |pat| > 0 && |s| > 0 && !(pat <= s)
    ensures ReplaceAll(s, pat, rep) == [s[0]] + ReplaceAll(s[1..], pat, rep)
  {
  }

  /** A replacement never touches text that cannot start an occurrence. */
  lemma {:induction false} ReplaceAllSkips(x: string, rest: string, pat: string, rep: string)
    requires |pat| > 0 && Lacks(x, pat[0])
    ensures ReplaceAll(x + rest, pat, rep) == x + ReplaceAll(rest, pat, rep)
  {
    if |x| > 0 {
      var s := x + rest;
      assert s[0] == x[0] && !(pat <= s);
      assert s[1..] == x[1..] + rest;
      ReplaceAllSkips(x[1..], rest, pat, rep);
      assert x == [x[0]] + x[1..];
    } else {
      assert x + rest == rest;
    }
  }

  /** A head where no occurrence starts, followed by text that cannot start
      one, is kept as it is. */
  lemma ReplaceAllKeepsHead(x: string, rest: string, pat: string, rep: string)
    requires |pat| > 0 && |x| > 0 && !(pat <= x + rest) && Lacks(x[1..], pat[0])
    ensures ReplaceAll(x + rest, pat, rep) == x + ReplaceAll(rest, pat, rep)
  {
    var s := x + rest;
    var tail := ReplaceAll(rest, pat, rep);
    calc {
      ReplaceAll(s, pat, rep);
    == { ReplaceAllMiss(s, pat, rep); }
      [s[0]] + ReplaceAll(s[1..], pat, rep);
    == { assert s[1..] == x[1..] + rest; ReplaceAllSkips(x[1..], rest, pat, rep); }
      [s[0]] + (x[1..] + tail);
    == { assert s[0] == x[0] && x == [x[0]] + x[1..]; }
      x + tail;
    }
  }

  /** Replacing a pattern that does not occur changes nothing. */
  lemma {:induction false} ReplaceAllAbsent(s: string, pat: string, rep: string)
    requires |pat| > 0 && Lacks(s, pat[0])
    ensures ReplaceAll(s, pat, rep) == s
  {
    ReplaceAllSkips(s, "", pat, rep);
    assert s + "" == s;
  }
}

=== FILE: wrappers.dfy ===
/** Failure-compatible wrappers used throughout the model: `Option` for
    values that may be absent (an empty spreadsheet cell, a lookup that finds
    nothing) and `Result` for computations that the original program aborts
    with an exception. */
module Wrappers {

  datatype Option<+T> = None | Some(value: T) {

    predicate IsFailure() {
      None?
    }

    function PropagateFailure<U>(): Option<U>
      requires None?
    {
      None
    }

    function Extract(): T
      requires Some?
    {
      value
    }
  }

  datatype Result<+R, +E> = Success(value: R) | Failure(error: E) {

    predicate IsFailure() {
      Failure?
    }

    function PropagateFailure<U>(): Result<U, E>
      requires Failure?
    {
      Failure(error)
    }

    function Extract(): R
      requires Success?
    {
      value
    }
  }
}
